=== FILE: README.md ===
# rust-tools, modelled in Dafny

This project models the sequential logic of three small command-line tools from
the `rust-tools` repository and proves properties of the model.

- **execute** runs one command in many directories or on many files.
  - The model covers how `parse_args` settles the options: the defaults, the
    repos-mode timeout and the missing-command error.
  - It covers how `run_command` rewrites the argument vector for `git` and
    `grep`, and where the target goes: the working directory in repos mode,
    the last argument in files mode.
  - It covers how `get_paths` finds the configuration file and turns its lines
    into targets.
  - It covers how `collect_lines_poll_once` gathers the lines available on a
    stream.
  - It covers how `main` prints each finished task: the header with the
    non-zero exit note, stdout, the labelled stderr block, error messages on
    standard error, and the progress line after every tenth task when headers
    are off.
- **bash-helper** prints the shell prompt.
  - The model covers `print_shortened_path`: the `~/` marker under home, the
    dropped leading tokens, and the `i8`-indexed loop that cuts every
    directory name but the last three to one character (two for dot-names).
  - It covers how `main` assembles the prompt from the environment.
- **filestile** keeps, for every match of a set of patterns, the
  earliest-created file in a directory, and deletes every other file.
  - The model covers the combined pattern.
  - It covers the first pass over the listing, including the `retain` that
    runs when an older file replaces a recorded one.
  - It covers the `keep` set and the deleting second pass.
- **environment.rs** `read_env_variables` maps each requested key to its
  value, or to the empty string when the variable is unset.

Modules:

- `Wrappers`: `Option` and `Result`.
- `Strings`: Rust's `split`, `join`, `trim`, `lines`, `starts_with` and
  `i32::to_string`, on strings of Unicode scalar values.
- `Environment`
- `ExecuteArgs`, `ExecutePaths`, `ExecuteReport`
- `BashHelper`
- `Filestile`

External effects and foreign libraries are parameters of the model:

- the process environment is a map;
- reading the configuration file is a function;
- `shellexpand`, `brace_expand` and `globby` are functions;
- the directory listings are sequences of entries;
- the compiled regular expression is a pair of functions (`is_match`, and the
  text of the whole match);
- the hostname is a string;
- the output of a stream is a sequence of poll results.

The header `main` prints for a finished task (execute/src/main.rs:379) is
`--`, a newline, the optional `[-] Non-zero <code>: ` note, then the target in
single quotes and a newline.

## Model

| member | source | states |
|---|---|---|
| Environment.ReadEnvVariables | environment.rs:4-18 | The keys of the map are exactly the requested keys. A key whose variable is set maps to its value, and an unset one maps to the empty string. |
| Environment.RequestedKeysPresent | environment.rs:10-16 | Every requested key can be indexed in the returned map and yields its looked-up value. |
| ExecuteArgs.ApplyFlagsOutcome | execute/src/main.rs:51-85 | The option loop succeeds exactly when every option is well formed. Otherwise it fails with the error of the first bad one: a missing or unparsable `-t`/`-w` value, or an unexpected argument. |
| ExecuteArgs.ApplyFlags | execute/src/main.rs:51-85 | The option loop fails only with an option error, never with the missing-command error. |
| ExecuteArgs.ApplyFlagsCommand | execute/src/main.rs:80-82 | The command is the positional words in the order given, after the words already gathered. |
| ExecuteArgs.ApplyFlagsSwitches | execute/src/main.rs:61-71 | Header, colour and repos mode are each on exactly when they started on and their `--no-header`, `--no-color` or `--files` option does not occur. |
| ExecuteArgs.ApplyFlagsConfig | execute/src/main.rs:73-78 | The configuration name is the value of the last `-c` that has one. A `-c` without a value changes nothing. |
| ExecuteArgs.ApplyFlagsMaxConcurrentTasks | execute/src/main.rs:57-59 | The task limit is the last `-w` value, or the starting value when none is given. |
| ExecuteArgs.ApplyFlagsTimeout | execute/src/main.rs:53-55 | The timeout is the last `-t` value, or the starting value when none is given. |
| ExecuteArgs.ApplyFlagsSettings | execute/src/main.rs:42-85 | Every field of a successful option loop is stated against the options alone. |
| ExecuteArgs.ParseArgsSucceeds | execute/src/main.rs:87-103 | `parse_args` succeeds exactly when every option is well formed and at least one command word is given. With well-formed options, the only failure is the missing command. |
| ExecuteArgs.ParseArgs | execute/src/main.rs:39-104 | A successful parse always has a command word and, in repos mode, a timeout. A failing option loop is returned unchanged, so the first bad option's own error reaches the caller. The missing-command error comes exactly when the option loop succeeded without a command word, and a successful parse implies a successful option loop. |
| ExecuteArgs.ParseArgsSettings | execute/src/main.rs:42-103 | A successful parse has a non-empty command made of the positional words. The switches reflect their options. The configuration name defaults to `repo.conf` and the task limit to 4. |
| ExecuteArgs.ParseArgsTimeout | execute/src/main.rs:87-89 | The timeout is the last one given. Without one, repos mode gets 3 seconds and files mode gets no limit. |
| ExecuteArgs.ParseArgsDefaults | execute/src/main.rs:42-48 | A command line of command words only parses to the defaults: header on, colour on, repos mode, `repo.conf`, 4 tasks, 3 seconds. |
| ExecuteArgs.Insert | execute/src/main.rs:136 | `Vec::insert` puts the element at the index and shifts the rest right, keeping both sides. |
| ExecuteArgs.InsertRunSplices | execute/src/main.rs:133-182 | A run of inserts at an advancing index splices the words in, in order, at the starting index. |
| ExecuteArgs.PrepareArgs | execute/src/main.rs:131-183 | `git` with colour gets `-c color.status=always` first. `grep` gets `--color=always` (with colour), then the 19 exclude options in source order, then its arguments. Every other command keeps its arguments. |
| ExecuteArgs.PrepareInvocation | execute/src/main.rs:185-190 | In repos mode the target is the working directory and the arguments are the rewritten ones. In files mode there is no working directory and the target follows the rewritten arguments. |
| ExecuteArgs.FilesModeTargetLast | execute/src/main.rs:188-190 | In files mode the target is the last argument and the user's arguments come right before it, in order. |
| ExecuteArgs.Plan | execute/src/main.rs:337-369 | One invocation per target, in target order, each with the first command word as program and the parsed timeout. In repos mode each runs inside its target with the rewritten arguments. In files mode none has a working directory and each gets its target after the rewritten arguments. |
| ExecutePaths.ConfigPath | execute/src/main.rs:258-264 | An absolute name is used as is. A relative name is looked up as `<home>/.config/personal/<name>`. |
| ExecutePaths.SkippedIff | execute/src/main.rs:274-276 | A line is skipped exactly when it starts with `#` or is all whitespace. |
| ExecutePaths.LineTargetsCases | execute/src/main.rs:273-284 | A skipped line yields nothing. A failed shell expansion stops with a panic. An expansion without `*` and `{` is taken literally. |
| ExecutePaths.LineTargetsOfPattern | execute/src/main.rs:284-302 | An expansion with `*` or `{` yields the globs of its brace alternatives, in order, and fails exactly when the glob of one alternative fails. |
| ExecutePaths.LineTargets | execute/src/main.rs:273-302 | A skipped line yields nothing. A line stops the program only when it is not skipped, and then with its own failed shell expansion or with a failed glob. |
| ExecutePaths.GlobAll | execute/src/main.rs:286-298 | A glob failure names one of the brace alternatives, and the glob of that alternative did fail. |
| ExecutePaths.GlobAllSucceeds | execute/src/main.rs:286-298 | Globbing the brace alternatives succeeds exactly when the glob of every alternative succeeds. |
| ExecutePaths.Targets | execute/src/main.rs:273-305 | The lines stop the program only with a failed glob or with the failed shell expansion of one of the lines that is not skipped. |
| ExecutePaths.TargetsSucceeds | execute/src/main.rs:273-305 | The lines yield targets exactly when every line does, so any failing line, early or late in the file, stops the program. |
| ExecutePaths.TargetsOfSkipped | execute/src/main.rs:273-276 | A configuration of nothing but comments and blank lines names no target. |
| ExecutePaths.Kept | execute/src/main.rs:273-276 | Every kept line is a configuration line that is not skipped. |
| ExecutePaths.KeptComplete | execute/src/main.rs:273-276 | Every configuration line that is not skipped is kept. |
| ExecutePaths.KeptAppend | execute/src/main.rs:273-276 | Keeping distributes over concatenation, so the kept lines stay in configuration order. |
| ExecutePaths.LiteralTargets | execute/src/main.rs:273-305 | When every kept line expands literally, the targets are the expansions of the kept lines, one per line and in order. |
| ExecutePaths.GetPathsOfLiteralConfig | execute/src/main.rs:258-305 | For any readable configuration text whose lines (as `lines()` reads them) all expand literally when kept, `get_paths` succeeds and returns the expansions of the kept lines, one per line and in order. |
| ExecutePaths.GetPaths | execute/src/main.rs:255-306 | `get_paths` fails with the unreadable-file error exactly when the resolved configuration path cannot be read. A failed shell expansion names a line of the file as `lines()` reads it, and that line is not skipped. |
| ExecutePaths.GetPathsSucceeds | execute/src/main.rs:258-305 | For a readable configuration, `get_paths` succeeds exactly when every line of the file, as `lines()` reads it, yields its targets; any failing line stops it. |
| ExecutePaths.GetPathsUnreadable | execute/src/main.rs:266-268 | A configuration file that cannot be read stops `get_paths` with an error naming the resolved path. |
| ExecuteReport.TakeLines | execute/src/main.rs:109-119 | The collected lines are the lines delivered before the first poll that is an error, the end, or nothing ready. |
| ExecuteReport.CollectLines | execute/src/main.rs:106-121 | Nothing available gives the empty text. Otherwise splitting the text at newlines gives back exactly the lines that were available. |
| ExecuteReport.StderrBlock | execute/src/main.rs:384-387 | The stderr block is empty exactly when stderr is. Otherwise it is the `[.] stderr:` label followed by stderr. |
| ExecuteReport.Format | execute/src/main.rs:373-391 | Successes go to stdout and errors to stderr, as `--`, newline, `! <message>`. A success is its header (only when headers are on), then the child's stdout, then the stderr block, which is the `[.] stderr:` label and stderr when stderr is non-empty and nothing otherwise. |
| ExecuteReport.PrintedText | execute/src/main.rs:379-388 | The printed success text is the header, then stdout, then the stderr block, and it ends with stderr. |
| ExecuteReport.ParseHeaderOfHeader | execute/src/main.rs:374-379 | A header determines its exit code and target: reading it back gives both. |
| ExecuteReport.HeaderNotesNonZero | execute/src/main.rs:374-379 | The header carries the `[-] Non-zero` note exactly when the exit code is not zero. |
| ExecuteReport.ReportResults | execute/src/main.rs:371-402 | Results are printed in arrival order, each formatted on its channel. A success without an exit code stops the loop (the `unwrap` panic), and that is the only way it stops early. When headers are off, a progress line with the number of outstanding targets follows exactly every tenth result. |
| ExecuteReport.ProgressCount | execute/src/main.rs:393-401 | A run without headers prints one progress line per ten results, and a run with headers prints none. |
| BashHelper.Abbreviate | bash-helper/src/main.rs:76-82 | A longer name is cut to its first character, or its first two when it starts with `.`. Names of one character or fewer stay. The result is a prefix of the name. |
| BashHelper.AbbreviateIdempotent | bash-helper/src/main.rs:76-82 | Cutting a name twice is cutting it once. |
| BashHelper.TruncateTokens | bash-helper/src/main.rs:62-83 | The `i8`-indexed loop leaves the last three tokens alone and cuts every earlier one. The count and order of the tokens stay. |
| BashHelper.ShortenedPath | bash-helper/src/main.rs:27-88 | The printed path starts with the colour and the container label and ends with the reset. Between them are the home marker and the joined tokens. |
| BashHelper.HomeMarkerIff | bash-helper/src/main.rs:45-50 | `~/` is shown exactly when home is non-empty and prefixes the path. The home directory itself prints no tokens. |
| BashHelper.DropsThreeTokens | bash-helper/src/main.rs:51-53 | Below home, a path of more than three tokens loses exactly its first three. |
| BashHelper.JoinedTokensRoundTrip | bash-helper/src/main.rs:85 | The joined tokens split back into the shortened tokens. |
| Strings.SplitConcat | bash-helper/src/main.rs:43 | Splitting two strings joined by a separator splits each side. |
| BashHelper.RelativeTokensForThreeTokenHome | bash-helper/src/main.rs:43-55 | For a home of three tokens (`/home/<user>`), a path below home keeps exactly the tokens of its part relative to home. |
| BashHelper.PromptVars | bash-helper/src/main.rs:103-114 | Every variable the prompt reads is present in the map with its looked-up value. |
| BashHelper.PromptOf | bash-helper/src/main.rs:117-123 | The prompt is the shortened working directory, then the `$` line. Between them, for a non-empty virtual environment, comes ` (`, its path shortened in the second colour, and `)`; otherwise nothing. |
| BashHelper.Prompt | bash-helper/src/main.rs:90-123 | The prompt is built from the environment variables of those names, an unset one reading as empty: `PWD` in `GREEN`, `VIRTUAL_ENV` in `BLUE`, the container label in `RED` when `NOT_HOST_ENV` is non-empty. |
| Filestile.Parenthesize | filestile/src/main.rs:70-73 | Each pattern is wrapped in parentheses, one per pattern and in order. |
| Filestile.CombinePatternsRoundTrip | filestile/src/main.rs:70-74 | Patterns without a bar character can be read back from the combined expression, one parenthesised piece per pattern. |
| Filestile.Retain | filestile/src/main.rs:115 | The retain keeps exactly the recorded keys that match the pattern, with their files. |
| Filestile.Record | filestile/src/main.rs:101-124 | A non-candidate changes nothing. A candidate's match ends up recorded. When its recorded file is as old or older, nothing changes; otherwise the candidate replaces it. On a strictly older replacement every other recorded match stays exactly when it still matches the pattern (the `retain`), and without one every other recorded match keeps its file. |
| Filestile.FirstPassRecordsCandidates | filestile/src/main.rs:85-124 | Every recorded file is a matching, non-directory entry with a creation time, stored under its own match with its own creation time. |
| Filestile.KeepOnlyCandidates | filestile/src/main.rs:139-142 | A kept name belongs to such an entry and is the recorded file under its own match. |
| Filestile.OneKeptPerKey | filestile/src/main.rs:110-124 | Two kept names with the same match are the same name. |
| Filestile.RetainIdle | filestile/src/main.rs:115 | When every match matches the pattern again, the retain drops nothing. |
| Filestile.FirstPassKeepsEarliest | filestile/src/main.rs:110-124 | When matches rematch, every match of a candidate is recorded. Each holds its earliest-created candidate, and on a tie the first one listed. |
| Filestile.Deleted | filestile/src/main.rs:149-160 | A path is deleted exactly when it is a readable non-directory entry whose name is not kept. |
| Filestile.RunDeletes | filestile/src/main.rs:144-160 | With one listing for both passes, deleted paths are the readable files outside `keep`. A file never seen as a candidate is always deleted. |
| Filestile.Run | filestile/src/main.rs:79-170 | Every kept name is the path of a candidate of the first listing, and an unreadable first listing keeps nothing. The deleted paths are exactly the readable non-directory entries of the second listing whose path is not kept; an unreadable second listing deletes nothing. |
| Filestile.KeepFromCandidates | filestile/src/main.rs:139-142 | Every kept name is the path of a candidate of the listing. |
| Filestile.SurvivorsAreEarliest | filestile/src/main.rs:85-160 | When matches rematch and paths are distinct, a readable file survives exactly when it is the earliest-created file of its match, and the first listed on a tie. |
| Filestile.EarliestIsKept | filestile/src/main.rs:110-142 | The earliest-first candidate of a match is kept. |
| Filestile.KeptIsEarliest | filestile/src/main.rs:110-142 | With distinct paths, a kept file is the earliest-first candidate of its match. |
| Strings.JoinSplit | bash-helper/src/main.rs:43 | Joining the pieces of `split` with the separator gives back the string. |
| Strings.SplitJoin | bash-helper/src/main.rs:85 | Pieces without the separator are recovered by splitting their join. |
| Strings.Lines | execute/src/main.rs:267-271 | No line holds a newline. The empty text has no lines, and a non-empty text without a newline is one line. |
| Strings.TrimStartSpec | execute/src/main.rs:274 | `trim_start` removes a whitespace-only prefix and leaves a suffix that does not start with whitespace. |
| Strings.TrimEndSpec | execute/src/main.rs:274 | `trim_end` removes a whitespace-only suffix and leaves a prefix that does not end with whitespace. |
| Strings.TrimEmptyIffBlank | execute/src/main.rs:274 | `trim` leaves nothing exactly when every character is Unicode whitespace. |
| Strings.LinesOfTerminated | execute/src/main.rs:267-271 | Text written as newline-terminated lines reads back, with `lines()`, as the same lines. |
| Strings.ParseIntToString | execute/src/main.rs:377 | The decimal text of an exit code reads back as the same code. |

## Left out

- Task scheduling is left out: the async runtime, the semaphore that bounds concurrent tasks, and the order in which tasks finish. Results are taken in arrival order. A task limit of 0, which would never let a task start, is a scheduling matter and is not modelled.
- Spawning, waiting and killing processes is left out, including the timeout race. The spawn, wait and timeout error messages are carried as opaque `Failed` messages. Their texts depend on `Debug` formats of paths and durations.
- `poll_once` readiness is left out: whether a line is ready on a single poll is an input (`Poll`), not modelled.
- Command-line tokenisation and number parsing by `lexopt` are left out: options arrive already classified, with a value that is missing or does not parse as `None`. The `filestile` and `read-*-setting` argument parsing is not part of this model.
- Non-Unicode arguments, paths and variables are left out: strings are sequences of Unicode scalar values, and lossy conversions are not modelled.
- The foreign libraries are not modelled: the regular expression engine, `shellexpand`, `brace_expand` and `globby` appear only as function parameters. An invalid pattern, which makes `Regex::new(..).unwrap()` panic, is not modelled.
- File system effects are left out: reading directories, `remove_file`, the `/tmp` writes and the `tmux` refresh of `bash-helper`, and `gethostname`. They are parameters or omitted. The two directory listings of `filestile` are independent parameters.
- `logging.rs`, `file_io.rs` and the `read-ini-setting` and `read-toml-setting` tools are not part of this model. The text of log lines is not modelled; the progress line is modelled by the number it shows.
- BashHelper.Abbreviate: counts characters where Rust's `len` and `truncate` count bytes. A cut that falls inside a multibyte character, on which `truncate` panics, is not modelled.
- BashHelper.ShortenedPath: requires fewer than 128 tokens after the home handling. At that size `tokens.len() as i8` wraps and the `i8` index overflows, and that behaviour is not modelled.
- Filestile.FirstPassKeepsEarliest: assumes that the text of every match matches the pattern again, so that the `retain` drops nothing. Without that hypothesis only `Filestile.FirstPassRecordsCandidates` and `Filestile.OneKeptPerKey` are stated.
- ExecutePaths.LiteralTargets: states the targets only for configurations whose kept lines all expand literally. Glob results enter as opaque sequences.
- ExecutePaths.GetPathsOfLiteralConfig: states the targets only for configuration text whose kept lines all expand literally, for the same reason.

=== FILE: bash_helper.dfy ===
/**
 * The prompt path of `bash-helper` (bash-helper/src/main.rs): the home
 * directory is shown as `~/`, and every directory name but the last three is
 * cut to its first character (two when it starts with a dot). The hostname,
 * the colour strings and the environment are parameters.
 */
module BashHelper {
  import opened Strings
  import Environment

  /** Rust's `i8`, the type `print_shortened_path` counts tokens in. */
  newtype i8 = x: int | -128 <= x < 128

  /** A directory name cut to one character, or to two when it starts with `.`; short names stay. */
  function Abbreviate(token: string): (r: string)
    ensures r <= token
    ensures |token| <= 1 ==> r == token
    ensures |token| > 1 ==> |r| == if token[0] == '.' then 2 else 1
  {
    if |token| > 1 then
      if token[0] == '.' then token[..2] else token[..1]
    else token
  }

  /** Abbreviating twice is abbreviating once. */
  lemma AbbreviateIdempotent(token: string)
    ensures Abbreviate(Abbreviate(token)) == Abbreviate(token)
  {
    if |token| > 1 && token[0] == '.' {
      assert Abbreviate(token)[0] == '.';
    }
  }

  /** Every token but the last three abbreviated; the count and the order stay. */
  function AbbreviateAll(tokens: seq<string>): (r: seq<string>)
    ensures |r| == |tokens|
  {
    seq(|tokens|, i requires 0 <= i < |tokens| => if i < |tokens| - 3 then Abbreviate(tokens[i]) else tokens[i])
  }

  /**
   * The truncation loop of `print_shortened_path`, with its `i8` counter:
   * indices `len - 2` and `len - 3` are skipped, index `len - 1` ends the
   * loop, and every other token is abbreviated.
   */
  method TruncateTokens(tokens: seq<string>) returns (r: seq<string>)
    requires |tokens| < 128
    ensures |r| == |tokens|
    ensures forall i :: 0 <= i < |tokens| && i >= |tokens| - 3 ==> r[i] == tokens[i]
    ensures forall i :: 0 <= i < |tokens| - 3 ==> r[i] == Abbreviate(tokens[i])
    ensures r == AbbreviateAll(tokens)
  {
    r := tokens;
    var tokensLen := |tokens| as i8;
    var tokensIdx: i8 := -1;
    var k := 0;
    while k < |r|
      invariant 0 <= k <= |r| == |tokens|
      invariant tokensIdx as int == k - 1
      invariant forall i :: 0 <= i < k ==> r[i] == AbbreviateAll(tokens)[i]
      invariant forall i :: k <= i < |r| ==> r[i] == tokens[i]
    {
      tokensIdx := tokensIdx + 1;
      if tokensIdx == tokensLen - 2 || tokensIdx == tokensLen - 3 {
        k := k + 1;
        continue;
      }
      if tokensIdx == tokensLen - 1 {
        break;
      }
      r := r[k := Abbreviate(r[k])];
      k := k + 1;
    }
  }

  /** `path.starts_with(home)` for a non-empty `home`. */
  predicate UnderHome(path: string, home: string) {
    |home| > 0 && StartsWith(path, home)
  }

  /**
   * The tokens left after the home handling: none for the home directory
   * itself; below it the first three are dropped, however deep `home` is.
   */
  function Tokens(path: string, home: string): seq<string> {
    var tokens := Split(path, '/');
    if UnderHome(path, home) then
      if |path| == |home| then []
      else if |tokens| > 3 then tokens[3..]
      else tokens
    else tokens
  }

  /** The hostname label shown inside a container. */
  function ContainerPrefix(hostname: string, notHostEnvColor: string, noColor: string, inContainer: bool): string {
    if inContainer then notHostEnvColor + hostname + ": " + noColor else ""
  }

  /** The `~/` marker for paths under home. */
  function HomeMarker(path: string, home: string): string {
    if UnderHome(path, home) then "~/" else ""
  }

  /** The remaining tokens, shortened and joined with `/`. */
  function ShortTail(path: string, home: string): string {
    Join(AbbreviateAll(Tokens(path, home)), "/")
  }

  /**
   * `print_shortened_path`: the text it prints, framed by the colour and the
   * reset, with the container label first and the home marker and the joined
   * shortened tokens between.
   */
  function ShortenedPath(path: string, home: string, color: string, notHostEnvColor: string,
                         noColor: string, inContainer: bool, hostname: string): (r: string)
    requires |Tokens(path, home)| < 128
    ensures var head := color + ContainerPrefix(hostname, notHostEnvColor, noColor, inContainer);
      && StartsWith(r, head) && EndsWith(r, noColor) && |r| >= |head| + |noColor|
      && r[|head|..|r| - |noColor|] == HomeMarker(path, home) + ShortTail(path, home)
  {
    var head := color + ContainerPrefix(hostname, notHostEnvColor, noColor, inContainer);
    var middle := HomeMarker(path, home) + ShortTail(path, home);
    Framed(head, middle, noColor);
    head + middle + noColor
  }

  /** The marker is `~/` exactly under a non-empty home; the home itself leaves nothing after it. */
  lemma HomeMarkerIff(path: string, home: string)
    ensures HomeMarker(path, home) == "~/" <==> |home| > 0 && StartsWith(path, home)
    ensures HomeMarker(path, home) == "" <==> !(|home| > 0 && StartsWith(path, home))
    ensures |home| > 0 && path == home ==> Tokens(path, home) == [] && ShortTail(path, home) == ""
  {
    if |home| > 0 && path == home {
      assert StartsWith(path, home);
    }
  }

  /** Below home, a path of more than three tokens loses exactly its first three. */
  lemma DropsThreeTokens(path: string, home: string)
    requires UnderHome(path, home) && |path| > |home| && |Split(path, '/')| > 3
    ensures Tokens(path, home) == Split(path, '/')[3..]
    ensures |Tokens(path, home)| == |Split(path, '/')| - 3
  {
  }

  /** The shortened tokens read back from the printed text: no token holds a `/`. */
  lemma JoinedTokensRoundTrip(path: string, home: string)
    requires |Tokens(path, home)| > 0
    ensures Split(Join(AbbreviateAll(Tokens(path, home)), "/"), '/') == AbbreviateAll(Tokens(path, home))
  {
    var tokens := Tokens(path, home);
    var all := Split(path, '/');
    SplitPiecesFree(path, '/');
    assert forall i :: 0 <= i < |tokens| ==> '/' !in tokens[i] by {
      forall i | 0 <= i < |tokens| ensures '/' !in tokens[i] {
        if UnderHome(path, home) && |path| != |home| && |all| > 3 {
          assert tokens[i] == all[i + 3];
        }
      }
    }
    var short := AbbreviateAll(tokens);
    assert forall i :: 0 <= i < |short| ==> '/' !in short[i] by {
      forall i | 0 <= i < |short| ensures '/' !in short[i] {
        assert short[i] <= tokens[i];
      }
    }
    SplitJoin(short, '/');
  }

  /**
   * For a home of three tokens (`/home/<user>`), a path below it keeps
   * exactly the tokens of its part relative to home.
   */
  lemma RelativeTokensForThreeTokenHome(home: string, rel: string)
    requires |home| > 0 && |Split(home, '/')| == 3
    ensures Tokens(home + "/" + rel, home) == Split(rel, '/')
  {
    var path := home + "/" + rel;
    SplitConcat(home, rel, '/');
    assert path[..|home|] == home;
    var sh := Split(home, '/');
    assert Split(path, '/') == sh + Split(rel, '/');
    assert (sh + Split(rel, '/'))[3..] == Split(rel, '/');
  }

  /** The variables `main` reads. */
  const PromptKeys: seq<string> :=
    ["HOME", "PWD", "NOT_HOST_ENV", "OS_CLOUD", "KUBECONFIG", "GREEN", "BLUE", "RED", "NC", "VIRTUAL_ENV"]

  /** Every variable `main` indexes is in the map. */
  predicate HasPromptKeys(vars: map<string, string>) {
    && "HOME" in vars && "PWD" in vars && "NOT_HOST_ENV" in vars && "GREEN" in vars
    && "BLUE" in vars && "RED" in vars && "NC" in vars && "VIRTUAL_ENV" in vars
  }

  /** The paths `main` shortens are short enough for the `i8` token counter. */
  predicate PromptPrintable(env: map<string, string>) {
    var home := Environment.Lookup(env, "HOME");
    && |Tokens(Environment.Lookup(env, "PWD"), home)| < 128
    && |Tokens(Environment.Lookup(env, "VIRTUAL_ENV"), home)| < 128
  }

  /** `read_env_variables` over the prompt keys holds every key `main` indexes, with its looked-up value. */
  lemma PromptVars(env: map<string, string>)
    ensures var vars := Environment.ReadEnvVariables(PromptKeys, env);
      && HasPromptKeys(vars)
      && vars["HOME"] == Environment.Lookup(env, "HOME")
      && vars["PWD"] == Environment.Lookup(env, "PWD")
      && vars["NOT_HOST_ENV"] == Environment.Lookup(env, "NOT_HOST_ENV")
      && vars["GREEN"] == Environment.Lookup(env, "GREEN")
      && vars["BLUE"] == Environment.Lookup(env, "BLUE")
      && vars["RED"] == Environment.Lookup(env, "RED")
      && vars["NC"] == Environment.Lookup(env, "NC")
      && vars["VIRTUAL_ENV"] == Environment.Lookup(env, "VIRTUAL_ENV")
  {
    var vars := Environment.ReadEnvVariables(PromptKeys, env);
    forall k | k in PromptKeys ensures k in vars && vars[k] == Environment.Lookup(env, k) {
      Environment.RequestedKeysPresent(PromptKeys, env, k);
    }
    assert PromptKeys[0] == "HOME" && PromptKeys[1] == "PWD" && PromptKeys[2] == "NOT_HOST_ENV";
    assert PromptKeys[5] == "GREEN" && PromptKeys[6] == "BLUE" && PromptKeys[7] == "RED";
    assert PromptKeys[8] == "NC" && PromptKeys[9] == "VIRTUAL_ENV";
  }

  /**
   * The printed prompt for the values `main` read: the shortened working
   * directory, then, for an active virtual environment, its shortened path in
   * the second colour inside ` (` and `)`, then the `$` line.
   */
  function PromptOf(pwd: string, home: string, green: string, blue: string, red: string, noColor: string,
                    inContainer: bool, venv: string, hostname: string): (r: string)
    requires |Tokens(pwd, home)| < 128 && |Tokens(venv, home)| < 128
    ensures var shownPwd := ShortenedPath(pwd, home, green, red, noColor, inContainer, hostname);
      && |r| >= |shownPwd| + 4
      && StartsWith(r, shownPwd) && EndsWith(r, "\n$ \n")
      && (|venv| > 0 <==> |r| > |shownPwd| + 4)
      && r[|shownPwd|..|r| - 4]
         == if |venv| > 0 then " (" + ShortenedPath(venv, home, blue, red, noColor, inContainer, hostname) + ")" else ""
  {
    var shownPwd := ShortenedPath(pwd, home, green, red, noColor, inContainer, hostname);
    var shownVenv := if |venv| > 0 then " (" + ShortenedPath(venv, home, blue, red, noColor, inContainer, hostname) + ")" else "";
    Framed(shownPwd, shownVenv, "\n$ \n");
    shownPwd + shownVenv + "\n$ \n"
  }

  /**
   * The prompt `main` prints: every value comes from the environment variable
   * of its name, an unset one reading as empty, and the container label is
   * shown when `NOT_HOST_ENV` is non-empty.
   */
  function Prompt(env: map<string, string>, hostname: string): (r: string)
    requires PromptPrintable(env)
    ensures r == PromptOf(Environment.Lookup(env, "PWD"), Environment.Lookup(env, "HOME"),
                          Environment.Lookup(env, "GREEN"), Environment.Lookup(env, "BLUE"),
                          Environment.Lookup(env, "RED"), Environment.Lookup(env, "NC"),
                          |Environment.Lookup(env, "NOT_HOST_ENV")| != 0,
                          Environment.Lookup(env, "VIRTUAL_ENV"), hostname)
  {
    PromptVars(env);
    var vars := Environment.ReadEnvVariables(PromptKeys, env);
    PromptOf(vars["PWD"], vars["HOME"], vars["GREEN"], vars["BLUE"], vars["RED"], vars["NC"],
             |vars["NOT_HOST_ENV"]| != 0, vars["VIRTUAL_ENV"], hostname)
  }
}

=== FILE: environment.dfy ===
/**
 * `read_env_variables` (environment.rs): a map over the requested keys in which
 * a key whose variable is unset maps to the empty string. The process
 * environment is a parameter: `env` holds exactly the variables that
 * `env::var` reads successfully.
 */
module Environment {

  /** The value `env::var(key)` yields, or `""` when the lookup fails. */
  function Lookup(env: map<string, string>, key: string): string {
    if key in env then env[key] else ""
  }

  /** The map built by inserting every requested key, in order, with its looked-up value. */
  function ReadEnvVariables(keys: seq<string>, env: map<string, string>): (r: map<string, string>)
    ensures forall k :: k in r <==> k in keys
    ensures forall k :: k in r && k in env ==> r[k] == env[k]
    ensures forall k :: k in r && k !in env ==> r[k] == ""
  {
    if |keys| == 0 then map[]
    else
      var last := keys[|keys| - 1];
      var r := ReadEnvVariables(keys[..|keys| - 1], env)[last := Lookup(env, last)];
      assert forall k :: k in keys <==> k in keys[..|keys| - 1] || k == last by {
        assert keys == keys[..|keys| - 1] + [last];
      }
      r
  }

  /** `main` indexes the map with requested keys; every such index is defined and holds the looked-up value. */
  lemma RequestedKeysPresent(keys: seq<string>, env: map<string, string>, k: string)
    requires k in keys
    ensures k in ReadEnvVariables(keys, env)
    ensures ReadEnvVariables(keys, env)[k] == Lookup(env, k)
  {
  }
}

=== FILE: execute_args.dfy ===
/**
 * The sequential parts of `execute` that decide what is run for each target:
 * the option defaults and post-checks of `parse_args`, the argument rewrite at
 * the top of `run_command`, and the split of the command into program and
 * arguments in `main` (execute/src/main.rs).
 */
module ExecuteArgs {
  import opened Wrappers

  // ---------------------------------------------------------------------------
  // parse_args
  // ---------------------------------------------------------------------------

  /**
   * One option as the command-line tokeniser delivers it. A value that is
   * missing or does not parse as an unsigned integer is `None`.
   */
  datatype Flag =
    | Timeout(seconds: Option<nat>)          // -t / --timeout
    | MaxConcurrentTasks(count: Option<nat>) // -w / --max-concurrent-tasks
    | NoHeader                               // --no-header
    | NoColor                                // --no-color
    | Files                                  // --files
    | Config(value: Option<string>)          // -c / --config; a missing value is ignored
    | Positional(word: string)               // a word of the command to run
    | Unexpected(name: string)               // anything else

  datatype ArgError = BadValue(flag: Flag) | UnexpectedArgument(name: string) | MissingCommand

  datatype Args = Args(
    showHeader: bool,
    useColor: bool,
    inRepos: bool,
    configFilename: string,
    maxConcurrentTasks: nat,
    timeout: Option<nat>,   // seconds
    command: seq<string>)

  /** The values `parse_args` starts from. */
  const Defaults := Args(true, true, true, "repo.conf", 4, None, [])

  /** The timeout, in seconds, that repos mode gets when none is given. */
  const RepoTimeout: nat := 3

  /** A flag the parser accepts; any other stops parsing with an error. */
  predicate WellFormed(f: Flag) {
    match f
    case Timeout(s) => s.Some?
    case MaxConcurrentTasks(n) => n.Some?
    case Unexpected(_) => false
    case _ => true
  }

  function FlagError(f: Flag): ArgError {
    if f.Unexpected? then UnexpectedArgument(f.name) else BadValue(f)
  }

  /** The effect of one flag on the options gathered so far. */
  function Apply(acc: Args, f: Flag): Result<Args, ArgError> {
    match f
    case Timeout(s) => if s.Some? then Success(acc.(timeout := s)) else Failure(FlagError(f))
    case MaxConcurrentTasks(n) =>
      if n.Some? then Success(acc.(maxConcurrentTasks := n.value)) else Failure(FlagError(f))
    case NoHeader => Success(acc.(showHeader := false))
    case NoColor => Success(acc.(useColor := false))
    case Files => Success(acc.(inRepos := false))
    case Config(v) => Success(if v.Some? then acc.(configFilename := v.value) else acc)
    case Positional(w) => Success(acc.(command := acc.command + [w]))
    case Unexpected(_) => Failure(FlagError(f))
  }

  /** The parse loop: the flags in order, stopping at the first error. */
  function ApplyFlags(acc: Args, flags: seq<Flag>): (r: Result<Args, ArgError>)
    ensures r.Failure? ==> r.error != MissingCommand
    decreases |flags|
  {
    if |flags| == 0 then Success(acc)
    else
      match Apply(acc, flags[0])
      case Failure(e) => Failure(e)
      case Success(next) => ApplyFlags(next, flags[1..])
  }

  /**
   * `parse_args`: the parse loop, then the repos-mode timeout default and the
   * empty-command check. A successful parse always has a command word and, in
   * repos mode, a timeout; a failure is a missing command only when the loop
   * itself succeeded.
   */
  function ParseArgs(flags: seq<Flag>): (r: Result<Args, ArgError>)
    ensures r.Success? ==> |r.value.command| > 0 && (r.value.inRepos ==> r.value.timeout.Some?)
    ensures r == Failure(MissingCommand) <==> ApplyFlags(Defaults, flags).Success? && |ApplyFlags(Defaults, flags).value.command| == 0
    ensures r.Success? ==> ApplyFlags(Defaults, flags).Success?
    ensures ApplyFlags(Defaults, flags).Failure? ==> r == ApplyFlags(Defaults, flags)
  {
    match ApplyFlags(Defaults, flags)
    case Failure(e) => Failure(e)
    case Success(a) =>
      var withTimeout := if a.inRepos && a.timeout.None? then a.(timeout := Some(RepoTimeout)) else a;
      if |withTimeout.command| == 0 then Failure(MissingCommand) else Success(withTimeout)
  }

  /** The command words, in the order they were given. */
  function Positionals(flags: seq<Flag>): (words: seq<string>)
    ensures |words| > 0 <==> exists i :: 0 <= i < |flags| && flags[i].Positional?
  {
    if |flags| == 0 then []
    else (if flags[0].Positional? then [flags[0].word] else []) + Positionals(flags[1..])
  }

  /**
   * The value the last flag selected by `pick` carries (later flags override
   * earlier ones), or `None` when no flag is selected.
   */
  function Latest<T(==)>(flags: seq<Flag>, pick: Flag -> Option<T>): (v: Option<T>)
    ensures v.None? <==> forall i :: 0 <= i < |flags| ==> pick(flags[i]).None?
    ensures v.Some? ==> exists i :: 0 <= i < |flags| && pick(flags[i]) == v
                          && forall j :: i < j < |flags| ==> pick(flags[j]).None?
  {
    if |flags| == 0 then None
    else
      var later := Latest(flags[1..], pick);
      if later.Some? then
        assert exists i :: 0 <= i < |flags| && pick(flags[i]) == later
                 && forall j :: i < j < |flags| ==> pick(flags[j]).None? by {
          var i :| 0 <= i < |flags| - 1 && pick(flags[1..][i]) == later
                    && forall j :: i < j < |flags| - 1 ==> pick(flags[1..][j]).None?;
          assert pick(flags[i + 1]) == later;
          forall j | i + 1 < j < |flags| ensures pick(flags[j]).None? {
            assert flags[j] == flags[1..][j - 1];
          }
        }
        later
      else pick(flags[0])
  }

  function PickTimeout(f: Flag): Option<nat> {
    if f.Timeout? then f.seconds else None
  }

  function PickMaxConcurrentTasks(f: Flag): Option<nat> {
    if f.MaxConcurrentTasks? then f.count else None
  }

  function PickConfig(f: Flag): Option<string> {
    if f.Config? then f.value else None
  }

  /** The parse loop succeeds exactly when every flag is well formed, and otherwise reports the first bad one. */
  lemma {:induction false} ApplyFlagsOutcome(acc: Args, flags: seq<Flag>)
    ensures ApplyFlags(acc, flags).Success? <==> forall i :: 0 <= i < |flags| ==> WellFormed(flags[i])
    ensures forall i :: 0 <= i < |flags| && !WellFormed(flags[i])
                        && (forall j :: 0 <= j < i ==> WellFormed(flags[j]))
                        ==> ApplyFlags(acc, flags) == Failure(FlagError(flags[i]))
    decreases |flags|
  {
    if |flags| > 0 {
      match Apply(acc, flags[0])
      case Failure(e) =>
        assert !WellFormed(flags[0]);
      case Success(next) =>
        assert WellFormed(flags[0]);
        ApplyFlagsOutcome(next, flags[1..]);
        forall i | 1 <= i < |flags| && !WellFormed(flags[i]) && (forall j :: 0 <= j < i ==> WellFormed(flags[j]))
          ensures ApplyFlags(acc, flags) == Failure(FlagError(flags[i]))
        {
          assert flags[1..][i - 1] == flags[i];
          assert forall j :: 0 <= j < i - 1 ==> WellFormed(flags[1..][j]) by {
            forall j | 0 <= j < i - 1 ensures WellFormed(flags[1..][j]) {
              assert flags[1..][j] == flags[j + 1];
            }
          }
        }
        assert (forall i :: 1 <= i < |flags| ==> WellFormed(flags[i]))
          <==> (forall i :: 0 <= i < |flags[1..]| ==> WellFormed(flags[1..][i]));
    }
  }

  /** The command words are gathered in order after those already present. */
  lemma {:induction false} ApplyFlagsCommand(acc: Args, flags: seq<Flag>)
    requires ApplyFlags(acc, flags).Success?
    ensures ApplyFlags(acc, flags).value.command == acc.command + Positionals(flags)
    decreases |flags|
  {
    if |flags| > 0 {
      var next := Apply(acc, flags[0]).value;
      ApplyFlagsCommand(next, flags[1..]);
      ApplyCommand(acc, flags[0]);
      assert acc.command + Positionals(flags) == next.command + Positionals(flags[1..]);
    }
  }

  /** One flag adds its word to the command when it is positional, and nothing otherwise. */
  lemma ApplyCommand(acc: Args, f: Flag)
    requires Apply(acc, f).Success?
    ensures Apply(acc, f).value.command == acc.command + (if f.Positional? then [f.word] else [])
  {
  }

  /** A switch is off exactly when it started off or its flag occurs. */
  lemma {:induction false} ApplyFlagsSwitches(acc: Args, flags: seq<Flag>)
    requires ApplyFlags(acc, flags).Success?
    ensures var a := ApplyFlags(acc, flags).value;
      && a.showHeader == (acc.showHeader && NoHeader !in flags)
      && a.useColor == (acc.useColor && NoColor !in flags)
      && a.inRepos == (acc.inRepos && Files !in flags)
    decreases |flags|
  {
    if |flags| > 0 {
      var next := Apply(acc, flags[0]).value;
      var rest := flags[1..];
      ApplyFlagsSwitches(next, rest);
      assert flags == [flags[0]] + rest;
    }
  }

  /** The configuration file name is the last one given with a value. */
  lemma {:induction false} ApplyFlagsConfig(acc: Args, flags: seq<Flag>)
    requires ApplyFlags(acc, flags).Success?
    ensures ApplyFlags(acc, flags).value.configFilename == Latest(flags, PickConfig).GetOr(acc.configFilename)
    decreases |flags|
  {
    if |flags| > 0 {
      var next := Apply(acc, flags[0]).value;
      ApplyFlagsConfig(next, flags[1..]);
      LatestUnfold(flags, PickConfig);
    }
  }

  /** The task limit is the last one given. */
  lemma {:induction false} ApplyFlagsMaxConcurrentTasks(acc: Args, flags: seq<Flag>)
    requires ApplyFlags(acc, flags).Success?
    ensures ApplyFlags(acc, flags).value.maxConcurrentTasks
         == Latest(flags, PickMaxConcurrentTasks).GetOr(acc.maxConcurrentTasks)
    decreases |flags|
  {
    if |flags| > 0 {
      var next := Apply(acc, flags[0]).value;
      ApplyFlagsMaxConcurrentTasks(next, flags[1..]);
      LatestUnfold(flags, PickMaxConcurrentTasks);
    }
  }

  /** The timeout is the last one given, and otherwise the starting one. */
  lemma {:induction false} ApplyFlagsTimeout(acc: Args, flags: seq<Flag>)
    requires ApplyFlags(acc, flags).Success?
    ensures ApplyFlags(acc, flags).value.timeout
         == (if Latest(flags, PickTimeout).Some? then Latest(flags, PickTimeout) else acc.timeout)
    decreases |flags|
  {
    if |flags| > 0 {
      var next := Apply(acc, flags[0]).value;
      ApplyFlagsTimeout(next, flags[1..]);
      LatestUnfold(flags, PickTimeout);
    }
  }

  lemma LatestUnfold<T>(flags: seq<Flag>, pick: Flag -> Option<T>)
    requires |flags| > 0
    ensures Latest(flags, pick)
         == (if Latest(flags[1..], pick).Some? then Latest(flags[1..], pick) else pick(flags[0]))
  {
  }

  /** Every option of a successful parse loop, stated against the flags. */
  lemma ApplyFlagsSettings(acc: Args, flags: seq<Flag>)
    requires ApplyFlags(acc, flags).Success?
    ensures var a := ApplyFlags(acc, flags).value;
      && a.command == acc.command + Positionals(flags)
      && a.showHeader == (acc.showHeader && NoHeader !in flags)
      && a.useColor == (acc.useColor && NoColor !in flags)
      && a.inRepos == (acc.inRepos && Files !in flags)
      && a.configFilename == Latest(flags, PickConfig).GetOr(acc.configFilename)
      && a.maxConcurrentTasks == Latest(flags, PickMaxConcurrentTasks).GetOr(acc.maxConcurrentTasks)
      && a.timeout == (if Latest(flags, PickTimeout).Some? then Latest(flags, PickTimeout) else acc.timeout)
  {
    ApplyFlagsCommand(acc, flags);
    ApplyFlagsSwitches(acc, flags);
    ApplyFlagsConfig(acc, flags);
    ApplyFlagsMaxConcurrentTasks(acc, flags);
    ApplyFlagsTimeout(acc, flags);
  }

  /** `parse_args` succeeds exactly when every flag is well formed and a command word was given. */
  lemma ParseArgsSucceeds(flags: seq<Flag>)
    ensures ParseArgs(flags).Success?
        <==> (forall i :: 0 <= i < |flags| ==> WellFormed(flags[i]))
             && exists i :: 0 <= i < |flags| && flags[i].Positional?
    ensures ParseArgs(flags).Failure? && (forall i :: 0 <= i < |flags| ==> WellFormed(flags[i]))
        ==> ParseArgs(flags).error == MissingCommand
  {
    ApplyFlagsOutcome(Defaults, flags);
    if ApplyFlags(Defaults, flags).Success? {
      ApplyFlagsSettings(Defaults, flags);
    }
  }

  /** The options of a successful parse, each stated against the flags alone. */
  lemma ParseArgsSettings(flags: seq<Flag>)
    requires ParseArgs(flags).Success?
    ensures var a := ParseArgs(flags).value;
      && a.command == Positionals(flags) && |a.command| > 0
      && a.showHeader == (NoHeader !in flags)
      && a.useColor == (NoColor !in flags)
      && a.inRepos == (Files !in flags)
      && a.configFilename == Latest(flags, PickConfig).GetOr("repo.conf")
      && a.maxConcurrentTasks == Latest(flags, PickMaxConcurrentTasks).GetOr(4)
  {
    ApplyFlagsSettings(Defaults, flags);
  }

  /**
   * The timeout is the last one given; without one, repos mode gets three
   * seconds and files mode runs without a limit.
   */
  lemma ParseArgsTimeout(flags: seq<Flag>)
    requires ParseArgs(flags).Success?
    ensures var a := ParseArgs(flags).value;
      && (Latest(flags, PickTimeout).Some? ==> a.timeout == Latest(flags, PickTimeout))
      && (Latest(flags, PickTimeout).None? && Files !in flags ==> a.timeout == Some(3))
      && (Latest(flags, PickTimeout).None? && Files in flags ==> a.timeout.None?)
  {
    ApplyFlagsSettings(Defaults, flags);
  }

  /** A command line of command words only yields the defaults: header, colour, repos mode, four tasks, three seconds. */
  lemma {:induction false} ParseArgsDefaults(words: seq<string>)
    requires |words| > 0
    ensures ParseArgs(seq(|words|, i requires 0 <= i < |words| => Positional(words[i])))
         == Success(Args(true, true, true, "repo.conf", 4, Some(3), words))
  {
    var flags := seq(|words|, i requires 0 <= i < |words| => Positional(words[i]));
    assert forall i :: 0 <= i < |flags| ==> flags[i].Positional? && WellFormed(flags[i]);
    ApplyFlagsOutcome(Defaults, flags);
    ApplyFlagsSettings(Defaults, flags);
    assert NoHeader !in flags && NoColor !in flags && Files !in flags;
    PositionalsOfWords(words);
    assert Latest(flags, PickTimeout).None?;
    assert Latest(flags, PickConfig).None?;
    assert Latest(flags, PickMaxConcurrentTasks).None?;
    var a := ApplyFlags(Defaults, flags).value;
    assert a == Args(true, true, true, "repo.conf", 4, None, words);
  }

  lemma {:induction false} PositionalsOfWords(words: seq<string>)
    ensures Positionals(seq(|words|, i requires 0 <= i < |words| => Positional(words[i]))) == words
    decreases |words|
  {
    if |words| > 0 {
      var flags := seq(|words|, i requires 0 <= i < |words| => Positional(words[i]));
      PositionalsOfWords(words[1..]);
      assert flags[1..] == seq(|words[1..]|, i requires 0 <= i < |words[1..]| => Positional(words[1..][i]));
      assert words == [words[0]] + words[1..];
    }
  }

  // ---------------------------------------------------------------------------
  // run_command: argument rewrite
  // ---------------------------------------------------------------------------

  const GitColorFlags: seq<string> := ["-c", "color.status=always"]

  const GrepColorFlag: string := "--color=always"

  /** The exclude flags `grep` always receives, in the order they are inserted. */
  const GrepExcludes: seq<string> := [
    "--exclude-dir=.git",
    "--exclude-dir=.helm",
    "--exclude-dir=.tox",
    "--exclude-dir=.pulumi",
    "--exclude-dir=.cache",
    "--exclude-dir=.mypy_cache",
    "--exclude-dir=.eggs",
    "--exclude-dir=*.egg-info",
    "--exclude-dir=*venv*",
    "--exclude-dir=_build",
    "--exclude-dir=__pycache__",
    "--exclude-dir=.ruff_cache",
    "--exclude=\"*.pyc\"",
    "--exclude-dir=.pytest_cache",
    "--exclude=poetry.lock",
    "--exclude-dir=htmlcov",
    "--exclude=\"*.html\"",
    "--exclude=build.*trace",
    "--exclude=Session.vim"
  ]

  /** `Vec::insert(idx, x)` */
  function Insert(s: seq<string>, idx: nat, x: string): (r: seq<string>)
    requires idx <= |s|
    ensures |r| == |s| + 1 && r[idx] == x
    ensures r[..idx] == s[..idx] && r[idx + 1..] == s[idx..]
  {
    s[..idx] + [x] + s[idx..]
  }

  /** The run of `args.insert(idx, x); idx += 1;` statements for the given words. */
  function InsertRun(s: seq<string>, idx: nat, words: seq<string>): seq<string>
    requires idx <= |s|
    decreases |words|
  {
    if |words| == 0 then s else InsertRun(Insert(s, idx, words[0]), idx + 1, words[1..])
  }

  /** Successive inserts at an advancing index splice the words in, in order, at the starting index. */
  lemma {:induction false} InsertRunSplices(s: seq<string>, idx: nat, words: seq<string>)
    requires idx <= |s|
    ensures InsertRun(s, idx, words) == s[..idx] + words + s[idx..]
    decreases |words|
  {
    if |words| > 0 {
      var s' := Insert(s, idx, words[0]);
      InsertRunSplices(s', idx + 1, words[1..]);
      assert s'[..idx + 1] == s[..idx] + [words[0]];
      assert s'[idx + 1..] == s[idx..];
      assert [words[0]] + words[1..] == words;
    }
  }

  /**
   * The argument vector after the colour and exclude insertions of
   * `run_command`: `git` with colour gets `-c color.status=always` in front,
   * `grep` gets `--color=always` (with colour) and then the excludes, and
   * every other command keeps its arguments.
   */
  function PrepareArgs(cmd: string, arguments: seq<string>, useColor: bool): (r: seq<string>)
    ensures useColor && cmd == "git" ==> r == GitColorFlags + arguments
    ensures cmd == "grep" ==> r == (if useColor then [GrepColorFlag] else []) + GrepExcludes + arguments
    ensures cmd != "grep" && !(useColor && cmd == "git") ==> r == arguments
  {
    InsertRunSplices(arguments, 0, GitColorFlags);
    var (colored, idx) :=
      if useColor && cmd == "git" then (InsertRun(arguments, 0, GitColorFlags), 2)
      else if useColor && cmd == "grep" then (Insert(arguments, 0, GrepColorFlag), 1)
      else (arguments, 0);
    assert colored == (if useColor && cmd == "grep" then [GrepColorFlag] else if useColor && cmd == "git" then GitColorFlags else []) + arguments;
    InsertRunSplices(colored, idx, GrepExcludes);
    if cmd == "grep" then InsertRun(colored, idx, GrepExcludes) else colored
  }

  /** What is spawned for one target. */
  datatype Invocation = Invocation(
    program: string,
    args: seq<string>,
    workingDir: Option<string>,  // `current_dir`, set in repos mode
    timeout: Option<nat>)

  /**
   * `run_command` up to the spawn: in repos mode the target becomes the
   * working directory; in files mode it is appended as the last argument.
   */
  function PrepareInvocation(cmd: string, arguments: seq<string>, target: string,
                             useColor: bool, inRepos: bool, timeout: Option<nat>): (inv: Invocation)
    ensures inv.program == cmd && inv.timeout == timeout
    ensures inRepos ==> inv.workingDir == Some(target) && inv.args == PrepareArgs(cmd, arguments, useColor)
    ensures !inRepos ==> inv.workingDir.None? && inv.args == PrepareArgs(cmd, arguments, useColor) + [target]
  {
    var args := PrepareArgs(cmd, arguments, useColor);
    if inRepos then Invocation(cmd, args, Some(target), timeout)
    else Invocation(cmd, args + [target], None, timeout)
  }

  /** In files mode the target is the single last argument and the given arguments stay in order before it. */
  lemma FilesModeTargetLast(cmd: string, arguments: seq<string>, target: string, useColor: bool, timeout: Option<nat>)
    ensures var inv := PrepareInvocation(cmd, arguments, target, useColor, false, timeout);
      && |inv.args| >= |arguments| + 1
      && inv.args[|inv.args| - 1] == target
      && inv.args[|inv.args| - 1 - |arguments|..|inv.args| - 1] == arguments
  {
    var inv := PrepareInvocation(cmd, arguments, target, useColor, false, timeout);
    var prepared := PrepareArgs(cmd, arguments, useColor);
    assert prepared[|prepared| - |arguments|..] == arguments;
    assert inv.args[|inv.args| - 1 - |arguments|..|inv.args| - 1] == prepared[|prepared| - |arguments|..];
  }

  /**
   * `main`'s fan-out: the first command word is the program, the rest its
   * arguments, and exactly one invocation is prepared per target, in target order.
   */
  function Plan(args: Args, targets: seq<string>): (plan: seq<Invocation>)
    requires |args.command| > 0
    ensures |plan| == |targets|
    ensures forall i :: 0 <= i < |plan| ==> plan[i].program == args.command[0] && plan[i].timeout == args.timeout
    ensures args.inRepos ==> forall i :: 0 <= i < |plan| ==>
      plan[i].workingDir == Some(targets[i]) && plan[i].args == PrepareArgs(args.command[0], args.command[1..], args.useColor)
    ensures !args.inRepos ==> forall i :: 0 <= i < |plan| ==>
      plan[i].workingDir.None? && plan[i].args == PrepareArgs(args.command[0], args.command[1..], args.useColor) + [targets[i]]
  {
    seq(|targets|, i requires 0 <= i < |targets| =>
      PrepareInvocation(args.command[0], args.command[1..], targets[i], args.useColor, args.inRepos, args.timeout))
  }
}

=== FILE: execute_paths.dfy ===
/**
 * `get_paths` (execute/src/main.rs): where the configuration file is looked
 * up, which of its lines are read as targets, and how a line becomes targets.
 * Reading the file, shell expansion, brace expansion and globbing are foreign
 * operations and appear as parameters; every `expect` on them is a `Panic`.
 */
module ExecutePaths {
  import opened Wrappers
  import opened Strings

  /** The foreign expanders: `shellexpand::full`, `brace_expand` and `globby::glob`. */
  datatype Expanders = Expanders(
    shell: string -> Option<string>,     // None: expansion failed
    brace: string -> seq<string>,
    glob: string -> Option<seq<string>>) // None: the pattern or one of its paths failed

  /** The `expect` that stopped the program. */
  datatype Panic = ConfigUnreadable(path: string) | ShellExpandFailed(line: string) | GlobFailed(pattern: string)

  const ConfigDir: string := ".config/personal"

  /** `PathBuf::is_absolute` on Unix. */
  predicate IsAbsolute(path: string) {
    |path| > 0 && path[0] == '/'
  }

  /** A relative configuration name is looked up in the personal configuration directory under `home`. */
  function ConfigPath(name: string, home: string): (path: string)
    ensures EndsWith(path, name)
    ensures IsAbsolute(name) ==> path == name
    ensures !IsAbsolute(name) ==> StartsWith(path, home) && path[|home|..] == "/.config/personal/" + name
  {
    if IsAbsolute(name) then name else home + "/" + ConfigDir + "/" + name
  }

  /** A comment line or one that is empty after trimming names no target. */
  predicate Skipped(line: string) {
    StartsWith(line, "#") || |Trim(line)| < 1
  }

  /** An expanded line without `*` and `{` is taken literally, not globbed. */
  predicate Literal(expanded: string) {
    '*' !in expanded && '{' !in expanded
  }

  /** Every glob result of every brace alternative, in order. */
  function GlobAll(alternatives: seq<string>, ex: Expanders): (r: Result<seq<string>, Panic>)
    ensures r.Failure? ==> r.error.GlobFailed? && r.error.pattern in alternatives && ex.glob(r.error.pattern).None?
  {
    if |alternatives| == 0 then Success([])
    else
      match ex.glob(alternatives[0])
      case None => Failure(GlobFailed(alternatives[0]))
      case Some(paths) =>
        match GlobAll(alternatives[1..], ex)
        case Failure(p) => Failure(p)
        case Success(rest) => Success(paths + rest)
  }

  /** The targets one configuration line contributes. */
  function LineTargets(line: string, ex: Expanders): (r: Result<seq<string>, Panic>)
    ensures Skipped(line) ==> r == Success([])
    ensures r.Failure? ==> !Skipped(line) && (r.error == ShellExpandFailed(line) || r.error.GlobFailed?)
  {
    if Skipped(line) then Success([])
    else
      match ex.shell(line)
      case None => Failure(ShellExpandFailed(line))
      case Some(expanded) =>
        if Literal(expanded) then Success([expanded]) else GlobAll(ex.brace(expanded), ex)
  }

  /** The targets of the lines in order, stopping at the first panic. */
  function Targets(lines: seq<string>, ex: Expanders): (r: Result<seq<string>, Panic>)
    ensures r.Failure? ==> r.error.GlobFailed? || (r.error.ShellExpandFailed? && r.error.line in lines && !Skipped(r.error.line))
  {
    if |lines| == 0 then Success([])
    else
      match LineTargets(lines[0], ex)
      case Failure(p) => Failure(p)
      case Success(first) =>
        match Targets(lines[1..], ex)
        case Failure(p) => Failure(p)
        case Success(rest) => Success(first + rest)
  }

  /** `get_paths`: read the configuration file and expand each of its lines. */
  function GetPaths(configName: string, home: string, readFile: string -> Option<string>, ex: Expanders)
    : (r: Result<seq<string>, Panic>)
    ensures readFile(ConfigPath(configName, home)).None? <==> r == Failure(ConfigUnreadable(ConfigPath(configName, home)))
    ensures r.Failure? && r.error.ShellExpandFailed? ==> '\n' !in r.error.line && !Skipped(r.error.line)
    ensures r.Failure? && r.error.ShellExpandFailed? ==>
      && readFile(ConfigPath(configName, home)).Some?
      && r.error.line in Lines(readFile(ConfigPath(configName, home)).value)
  {
    var path := ConfigPath(configName, home);
    match readFile(path)
    case None => Failure(ConfigUnreadable(path))
    case Some(text) => Targets(Lines(text), ex)
  }

  /** A skipped line contributes nothing; a literal line contributes exactly its expansion. */
  lemma LineTargetsCases(line: string, ex: Expanders)
    ensures Skipped(line) ==> LineTargets(line, ex) == Success([])
    ensures !Skipped(line) && ex.shell(line).Some? && Literal(ex.shell(line).value)
            ==> LineTargets(line, ex) == Success([ex.shell(line).value])
    ensures !Skipped(line) && ex.shell(line).None? ==> LineTargets(line, ex) == Failure(ShellExpandFailed(line))
  {
  }

  /**
   * An expansion with `*` or `{` is brace-expanded and globbed: the line
   * yields the globs of its alternatives and fails exactly when the glob of
   * one of them fails.
   */
  lemma LineTargetsOfPattern(line: string, ex: Expanders)
    ensures !Skipped(line) && ex.shell(line).Some? && !Literal(ex.shell(line).value) ==>
      && LineTargets(line, ex) == GlobAll(ex.brace(ex.shell(line).value), ex)
      && (LineTargets(line, ex).Success? <==> forall a :: a in ex.brace(ex.shell(line).value) ==> ex.glob(a).Some?)
  {
    if !Skipped(line) && ex.shell(line).Some? && !Literal(ex.shell(line).value) {
      GlobAllSucceeds(ex.brace(ex.shell(line).value), ex);
    }
  }

  /** A line is skipped when it starts with `#` or holds nothing but whitespace. */
  lemma SkippedIff(line: string)
    ensures Skipped(line) <==> StartsWith(line, "#") || IsBlank(line)
  {
    TrimEmptyIffBlank(line);
  }

  /** The lines that are not skipped, in order. */
  function Kept(lines: seq<string>): (kept: seq<string>)
    ensures forall i :: 0 <= i < |kept| ==> !Skipped(kept[i])
    ensures forall l :: l in kept ==> l in lines
  {
    if |lines| == 0 then []
    else (if Skipped(lines[0]) then [] else [lines[0]]) + Kept(lines[1..])
  }

  /** Every configuration line that is not skipped is kept. */
  lemma {:induction false} KeptComplete(lines: seq<string>)
    ensures forall i :: 0 <= i < |lines| && !Skipped(lines[i]) ==> lines[i] in Kept(lines)
    decreases |lines|
  {
    if |lines| > 0 {
      var rest := lines[1..];
      KeptComplete(rest);
      forall i | 0 <= i < |lines| && !Skipped(lines[i]) ensures lines[i] in Kept(lines) {
        if i > 0 {
          assert lines[i] == rest[i - 1];
        }
      }
    }
  }

  /** Keeping distributes over concatenation: the kept lines keep their order. */
  lemma {:induction false} KeptAppend(a: seq<string>, b: seq<string>)
    ensures Kept(a + b) == Kept(a) + Kept(b)
    decreases |a|
  {
    if |a| > 0 {
      assert (a + b)[1..] == a[1..] + b;
      KeptAppend(a[1..], b);
    } else {
      assert a + b == b;
    }
  }

  /** Brace alternatives glob successfully exactly when every alternative does. */
  lemma {:induction false} GlobAllSucceeds(alternatives: seq<string>, ex: Expanders)
    ensures GlobAll(alternatives, ex).Success? <==> forall a :: a in alternatives ==> ex.glob(a).Some?
    decreases |alternatives|
  {
    if |alternatives| > 0 {
      var rest := alternatives[1..];
      GlobAllSucceeds(rest, ex);
      assert alternatives == [alternatives[0]] + rest;
    }
  }

  /** The lines yield targets exactly when every line does: any failing line stops `get_paths`. */
  lemma {:induction false} TargetsSucceeds(lines: seq<string>, ex: Expanders)
    ensures Targets(lines, ex).Success? <==> forall i :: 0 <= i < |lines| ==> LineTargets(lines[i], ex).Success?
    decreases |lines|
  {
    if |lines| > 0 {
      var rest := lines[1..];
      TargetsSucceeds(rest, ex);
      assert forall i :: 0 <= i < |rest| ==> rest[i] == lines[i + 1];
    }
  }

  /** A configuration of nothing but comments and blank lines names no target. */
  lemma {:induction false} TargetsOfSkipped(lines: seq<string>, ex: Expanders)
    requires forall i :: 0 <= i < |lines| ==> Skipped(lines[i])
    ensures Targets(lines, ex) == Success([])
    decreases |lines|
  {
    if |lines| > 0 {
      var rest := lines[1..];
      assert forall i :: 0 <= i < |rest| ==> rest[i] == lines[i + 1];
      TargetsOfSkipped(rest, ex);
      assert Skipped(lines[0]);
      assert LineTargets(lines[0], ex) == Success([]);
      var none: seq<string> := [];
      assert none + none == none;
      assert Targets(lines, ex) == Success(none + none);
    }
  }

  /** A line that is skipped, or that shell-expands to a literal. */
  predicate LiteralLine(line: string, ex: Expanders) {
    !Skipped(line) ==> ex.shell(line).Some? && Literal(ex.shell(line).value)
  }

  /**
   * When every kept line expands to a literal, the targets are exactly the
   * expansions of the kept lines, one per line and in order.
   */
  lemma {:induction false} LiteralTargets(lines: seq<string>, ex: Expanders)
    requires forall i :: 0 <= i < |lines| ==> LiteralLine(lines[i], ex)
    ensures Targets(lines, ex).Success?
    ensures var kept := Kept(lines);
      var targets := Targets(lines, ex).value;
      |targets| == |kept| && forall i :: 0 <= i < |kept| ==> ex.shell(kept[i]) == Some(targets[i])
    decreases |lines|
  {
    if |lines| > 0 {
      var rest := lines[1..];
      assert forall i :: 0 <= i < |rest| ==> rest[i] == lines[i + 1];
      LiteralTargets(rest, ex);
      var t := Targets(rest, ex).value;
      assert LiteralLine(lines[0], ex);
      LineTargetsCases(lines[0], ex);
      TargetsCons(lines, ex);
      if Skipped(lines[0]) {
        assert Kept(lines) == Kept(rest);
        assert [] + t == t;
      } else {
        assert Kept(lines) == [lines[0]] + Kept(rest);
      }
    }
  }

  /** The targets of a line followed by more lines, when both succeed. */
  lemma TargetsCons(lines: seq<string>, ex: Expanders)
    requires |lines| > 0 && LineTargets(lines[0], ex).Success? && Targets(lines[1..], ex).Success?
    ensures Targets(lines, ex) == Success(LineTargets(lines[0], ex).value + Targets(lines[1..], ex).value)
  {
  }

  /**
   * A configuration whose lines all expand literally yields the expansions
   * of its kept lines, one per line and in order.
   */
  lemma GetPathsOfLiteralConfig(configName: string, home: string, readFile: string -> Option<string>,
                                ex: Expanders, text: string)
    requires readFile(ConfigPath(configName, home)) == Some(text)
    requires forall i :: 0 <= i < |Lines(text)| ==> LiteralLine(Lines(text)[i], ex)
    ensures GetPaths(configName, home, readFile, ex).Success?
    ensures var kept := Kept(Lines(text));
      var targets := GetPaths(configName, home, readFile, ex).value;
      |targets| == |kept| && forall i :: 0 <= i < |kept| ==> ex.shell(kept[i]) == Some(targets[i])
  {
    LiteralTargets(Lines(text), ex);
  }

  /** A readable configuration yields targets exactly when every one of its lines does. */
  lemma GetPathsSucceeds(configName: string, home: string, readFile: string -> Option<string>, ex: Expanders,
                         text: string)
    requires readFile(ConfigPath(configName, home)) == Some(text)
    ensures GetPaths(configName, home, readFile, ex).Success?
        <==> forall i :: 0 <= i < |Lines(text)| ==> LineTargets(Lines(text)[i], ex).Success?
  {
    TargetsSucceeds(Lines(text), ex);
  }

  /** An unreadable configuration file stops `get_paths` with the path it tried. */
  lemma GetPathsUnreadable(configName: string, home: string, readFile: string -> Option<string>, ex: Expanders)
    requires readFile(ConfigPath(configName, home)).None?
    ensures GetPaths(configName, home, readFile, ex) == Failure(ConfigUnreadable(ConfigPath(configName, home)))
  {
  }
}

=== FILE: execute_report.dfy ===
/**
 * How `execute` turns finished tasks into text (execute/src/main.rs): the
 * single-poll output collection of `collect_lines_poll_once`, the per-result
 * formatting in `main`, and the progress counter shown when headers are off.
 * Results arrive in completion order; the model takes that order as given.
 */
module ExecuteReport {
  import opened Wrappers
  import opened Strings

  // ---------------------------------------------------------------------------
  // collect_lines_poll_once
  // ---------------------------------------------------------------------------

  /** What one poll of a line stream yields. */
  datatype Poll =
    | Line(text: string) // a complete line, without its terminator
    | ReadError          // the stream reported an error
    | Ended              // the stream is closed
    | Pending            // nothing is available yet

  /** The lines available before the first poll that is not a line. */
  function TakeLines(polls: seq<Poll>): (lines: seq<string>)
    ensures |lines| <= |polls|
    ensures forall i :: 0 <= i < |lines| ==> polls[i] == Line(lines[i])
    ensures |lines| < |polls| ==> !polls[|lines|].Line?
  {
    if |polls| == 0 || !polls[0].Line? then []
    else [polls[0].text] + TakeLines(polls[1..])
  }

  /** A poll's text never holds the line terminator. */
  predicate NoNewlines(polls: seq<Poll>) {
    forall i :: 0 <= i < |polls| && polls[i].Line? ==> '\n' !in polls[i].text
  }

  /**
   * `collect_lines_poll_once`: the available lines joined with newlines.
   * Nothing available gives the empty text; otherwise splitting the text at
   * newlines gives back exactly the lines that were available.
   */
  function CollectLines(polls: seq<Poll>): (text: string)
    ensures TakeLines(polls) == [] ==> text == ""
    ensures NoNewlines(polls) && |TakeLines(polls)| > 0 ==> Split(text, '\n') == TakeLines(polls)
  {
    JoinTakenLines(polls);
    Join(TakeLines(polls), "\n")
  }

  /** Joined newline-free lines split back into those lines. */
  lemma JoinTakenLines(polls: seq<Poll>)
    ensures NoNewlines(polls) && |TakeLines(polls)| > 0 ==> Split(Join(TakeLines(polls), "\n"), '\n') == TakeLines(polls)
  {
    if NoNewlines(polls) && |TakeLines(polls)| > 0 {
      TakenLinesFree(polls);
      SplitJoin(TakeLines(polls), '\n');
    }
  }

  /** The lines taken from newline-free polls are newline-free. */
  lemma TakenLinesFree(polls: seq<Poll>)
    requires NoNewlines(polls)
    ensures forall i :: 0 <= i < |TakeLines(polls)| ==> '\n' !in TakeLines(polls)[i]
  {
    var lines := TakeLines(polls);
    forall i | 0 <= i < |lines| ensures '\n' !in lines[i] {
      assert polls[i] == Line(lines[i]);
    }
  }

  // ---------------------------------------------------------------------------
  // result formatting
  // ---------------------------------------------------------------------------

  /** What `run_command` hands back for one target. */
  datatype TaskResult =
    | Completed(file: string, exitCode: Option<int>, stdout: string, stderr: string)
    | Failed(message: string)

  /** One printed line; `println!` and `eprintln!` add the final newline. */
  datatype Output = Stdout(text: string) | Stderr(text: string)

  /** The output for one result and, when headers are off, the progress line that may follow it. */
  datatype Step = Step(output: Output, remaining: Option<nat>)

  /** Everything `main` printed, and whether it stopped on a result without an exit code. */
  datatype Report = Report(steps: seq<Step>, panicked: bool)

  const NonZeroTag: string := "[-] Non-zero "

  const StderrLabel: string := "\n[.] stderr:\n"

  /** The note put before the file name when the exit code is not zero. */
  function ExitInfo(ec: int): string {
    if ec != 0 then NonZeroTag + IntToString(ec) + ": " else ""
  }

  /** The header line pair naming the target. */
  function Header(ec: int, file: string): string {
    "--\n" + (ExitInfo(ec) + "'" + file) + "'\n"
  }

  /** The labelled stderr block, present only for non-empty stderr. */
  function StderrBlock(stderr: string): (block: string)
    ensures block == "" <==> stderr == ""
    ensures stderr != "" ==> StartsWith(block, StderrLabel) && block[|StderrLabel|..] == stderr
  {
    if |stderr| > 0 then StderrLabel + stderr else ""
  }

  /** A result can be printed only when it is an error or carries an exit code (`exit_code.unwrap()`). */
  predicate Printable(r: TaskResult) {
    r.Completed? ==> r.exitCode.Some?
  }

  /**
   * The line printed for one result. Successes go to standard output, errors
   * to standard error; a success starts with its header when headers are on,
   * with its stdout when they are off, and ends with its stderr.
   */
  function Format(r: TaskResult, showHeader: bool): (o: Output)
    requires Printable(r)
    ensures o.Stdout? <==> r.Completed?
    ensures r.Failed? ==> o.text == "--\n! " + r.message
    ensures r.Completed? && showHeader ==> StartsWith(o.text, Header(r.exitCode.value, r.file))
    ensures r.Completed? && !showHeader ==> StartsWith(o.text, r.stdout)
    ensures r.Completed? ==> EndsWith(o.text, r.stderr)
    ensures r.Completed? ==>
      var head := if showHeader then Header(r.exitCode.value, r.file) else "";
      && StartsWith(o.text, head) && StartsWith(o.text[|head|..], r.stdout)
      && o.text[|head| + |r.stdout|..] == StderrBlock(r.stderr)
  {
    match r
    case Completed(file, ec, out, err) =>
      var head := if showHeader then Header(ec.value, file) else "";
      PrintedText(head, out, err);
      Stdout(head + out + StderrBlock(err))
    case Failed(message) => Stderr("--\n! " + message)
  }

  /** The printed text of a success starts with its header, then its stdout, and ends with its stderr. */
  lemma PrintedText(head: string, out: string, err: string)
    ensures var text := head + out + StderrBlock(err);
      && StartsWith(text, head) && StartsWith(text[|head|..], out) && EndsWith(text, err)
      && text[|head| + |out|..] == StderrBlock(err)
  {
    var block := StderrBlock(err);
    var text := head + out + block;
    assert text == head + (out + block);
    assert text[|head|..] == out + block;
    ConcatAffixes(head, out + block);
    ConcatAffixes(out, block);
    if err != "" {
      assert text == (head + out + StderrLabel) + err;
      ConcatAffixes(head + out + StderrLabel, err);
    } else {
      assert text[|text|..] == "";
    }
  }

  // ---------------------------------------------------------------------------
  // reading a header back
  // ---------------------------------------------------------------------------

  /** The first position of `c` in `s`, or `|s|` when it does not occur. */
  function IndexOf(s: string, c: char): (i: nat)
    ensures i <= |s| && c !in s[..i]
    ensures i < |s| ==> s[i] == c
  {
    if |s| == 0 then 0
    else if s[0] == c then 0
    else
      var i := 1 + IndexOf(s[1..], c);
      assert s[..i] == [s[0]] + s[1..][..i - 1];
      i
  }

  /** Recovers the exit code and file name a header was made from. */
  function ParseHeader(h: string): Option<(int, string)> {
    if |h| < 5 || !StartsWith(h, "--\n") || !EndsWith(h, "'\n") then None
    else ParseInner(h[3..|h| - 2])
  }

  /** The part of a header between `--` and the final newline: an optional non-zero note, then the quoted name. */
  function ParseInner(inner: string): Option<(int, string)> {
    if StartsWith(inner, "'") then Some((0, inner[1..]))
    else if StartsWith(inner, NonZeroTag) then
      var rest := inner[|NonZeroTag|..];
      var i := IndexOf(rest, ':');
      var after := rest[i..];
      match ParseInt(rest[..i])
      case Some(ec) => if ec != 0 && StartsWith(after, ": '") then Some((ec, after[3..])) else None
      case None => None
    else None
  }

  /** A header determines its exit code and file name: parsing it gives them back. */
  lemma ParseHeaderOfHeader(ec: int, file: string)
    ensures ParseHeader(Header(ec, file)) == Some((ec, file))
  {
    HeaderFrame(ec, file);
    if ec != 0 {
      ParseNonZeroInner(ec, file);
    } else {
      var inner := "'" + file;
      assert ExitInfo(ec) + "'" + file == inner;
      assert StartsWith(inner, "'") && inner[1..] == file;
    }
  }

  /** A header is `--`, a newline, the inner part, a quote and a newline. */
  lemma HeaderFrame(ec: int, file: string)
    ensures var h := Header(ec, file);
      && |h| >= 5 && StartsWith(h, "--\n") && EndsWith(h, "'\n")
      && h[3..|h| - 2] == ExitInfo(ec) + "'" + file
  {
    Framed("--\n", ExitInfo(ec) + "'" + file, "'\n");
  }

  /** The inner part of a header with a non-zero code reads back as the code and the name. */
  lemma ParseNonZeroInner(ec: int, file: string)
    requires ec != 0
    ensures ParseInner(ExitInfo(ec) + "'" + file) == Some((ec, file))
  {
    var digits := IntToString(ec);
    assert ExitInfo(ec) + "'" + file == NonZeroTag + digits + ": '" + file;
    IntToStringChars(ec);
    ParseIntToString(ec);
    InnerWithCode(digits, file, ec);
  }

  lemma InnerWithCode(digits: string, file: string, ec: int)
    requires ':' !in digits && ParseInt(digits) == Some(ec) && ec != 0
    ensures ParseInner(NonZeroTag + digits + ": '" + file) == Some((ec, file))
  {
    var inner := NonZeroTag + digits + ": '" + file;
    var rest := digits + ": '" + file;
    assert inner == NonZeroTag + rest;
    ConcatAffixes(NonZeroTag, rest);
    assert inner[|NonZeroTag|..] == rest;
    assert inner[0] == '[';
    IndexOfAt(digits, ": '" + file);
    assert rest[..|digits|] == digits;
    assert rest[|digits|..] == ": '" + file;
  }

  lemma IndexOfAt(head: string, tail: string)
    requires ':' !in head && |tail| > 0 && tail[0] == ':'
    ensures IndexOf(head + tail, ':') == |head|
  {
    var s := head + tail;
    assert s[|head|] == ':';
    assert s[..|head|] == head;
  }

  /** The non-zero note appears in the header exactly when the exit code is not zero. */
  lemma HeaderNotesNonZero(ec: int, file: string)
    ensures StartsWith(Header(ec, file), "--\n" + NonZeroTag) <==> ec != 0
  {
    var h := Header(ec, file);
    if ec == 0 {
      assert h[3] == '\'';
      assert ("--\n" + NonZeroTag)[3] == '[';
    } else {
      assert h[..|"--\n" + NonZeroTag|] == "--\n" + NonZeroTag;
    }
  }

  // ---------------------------------------------------------------------------
  // the result loop of main
  // ---------------------------------------------------------------------------

  /**
   * The result loop of `main`. Every result, success or error, is printed and,
   * when headers are off, counted; every tenth counted result is followed by a
   * progress line with the number of targets still outstanding. A success
   * without an exit code stops the program before anything is printed for it.
   */
  method ReportResults(results: seq<TaskResult>, showHeader: bool, numberOfPaths: nat) returns (report: Report)
    requires |results| <= numberOfPaths
    ensures report.panicked <==> exists i :: 0 <= i < |results| && !Printable(results[i])
    ensures !report.panicked ==> |report.steps| == |results|
    ensures report.panicked ==> |report.steps| < |results| && !Printable(results[|report.steps|])
    ensures forall i :: 0 <= i < |report.steps| ==>
      Printable(results[i]) && report.steps[i].output == Format(results[i], showHeader)
    ensures forall i :: 0 <= i < |report.steps| ==>
      (report.steps[i].remaining.Some? <==> !showHeader && (i + 1) % 10 == 0)
    ensures forall i :: 0 <= i < |report.steps| && report.steps[i].remaining.Some? ==>
      report.steps[i].remaining.value == numberOfPaths - (i + 1)
  {
    var steps: seq<Step> := [];
    var tasksDone: nat := 0;
    var i := 0;
    while i < |results|
      invariant i <= |results| && |steps| == i
      invariant tasksDone == if showHeader then 0 else i
      invariant forall j :: 0 <= j < i ==> StepFits(results, steps, j, showHeader, numberOfPaths)
    {
      var result := results[i];
      if !Printable(result) {
        assert forall j :: 0 <= j < i ==> Printable(results[j]) by {
          forall j | 0 <= j < i ensures Printable(results[j]) {
            assert StepFits(results, steps, j, showHeader, numberOfPaths);
          }
        }
        report := Report(steps, true);
        ReportFits(results, report, showHeader, numberOfPaths);
        return;
      }
      var output := Format(result, showHeader);
      var remaining: Option<nat> := None;
      if !showHeader {
        tasksDone := tasksDone + 1;
        if tasksDone % 10 == 0 {
          var left := 0;
          if numberOfPaths > 0 {
            left := numberOfPaths - tasksDone;
          }
          remaining := Some(left);
        }
      }
      var steps' := steps + [Step(output, remaining)];
      assert StepFits(results, steps', i, showHeader, numberOfPaths);
      ExtendFits(results, steps, Step(output, remaining), showHeader, numberOfPaths);
      steps := steps';
      i := i + 1;
    }
    report := Report(steps, false);
    ReportFits(results, report, showHeader, numberOfPaths);
  }

  /** Step `j` is the output of result `j`, with a progress line after every tenth result when headers are off. */
  ghost predicate StepFits(results: seq<TaskResult>, steps: seq<Step>, j: nat, showHeader: bool, numberOfPaths: nat)
    requires j < |steps| && j < |results|
  {
    && Printable(results[j])
    && steps[j].output == Format(results[j], showHeader)
    && (steps[j].remaining.Some? <==> !showHeader && (j + 1) % 10 == 0)
    && (steps[j].remaining.Some? ==> steps[j].remaining.value == numberOfPaths - (j + 1))
  }

  lemma ExtendFits(results: seq<TaskResult>, steps: seq<Step>, step: Step, showHeader: bool, numberOfPaths: nat)
    requires |steps| < |results|
    requires forall j :: 0 <= j < |steps| ==> StepFits(results, steps, j, showHeader, numberOfPaths)
    requires StepFits(results, steps + [step], |steps|, showHeader, numberOfPaths)
    ensures forall j :: 0 <= j <= |steps| ==> StepFits(results, steps + [step], j, showHeader, numberOfPaths)
  {
    forall j | 0 <= j < |steps| ensures StepFits(results, steps + [step], j, showHeader, numberOfPaths) {
      assert StepFits(results, steps, j, showHeader, numberOfPaths);
      assert (steps + [step])[j] == steps[j];
    }
  }

  lemma ReportFits(results: seq<TaskResult>, report: Report, showHeader: bool, numberOfPaths: nat)
    requires |report.steps| <= |results|
    requires forall j :: 0 <= j < |report.steps| ==> StepFits(results, report.steps, j, showHeader, numberOfPaths)
    requires report.panicked <==> |report.steps| < |results|
    requires report.panicked ==> !Printable(results[|report.steps|])
    ensures report.panicked <==> exists i :: 0 <= i < |results| && !Printable(results[i])
    ensures forall i :: 0 <= i < |report.steps| ==>
      Printable(results[i]) && report.steps[i].output == Format(results[i], showHeader)
    ensures forall i :: 0 <= i < |report.steps| ==>
      (report.steps[i].remaining.Some? <==> !showHeader && (i + 1) % 10 == 0)
    ensures forall i :: 0 <= i < |report.steps| && report.steps[i].remaining.Some? ==>
      report.steps[i].remaining.value == numberOfPaths - (i + 1)
  {
    forall i | 0 <= i < |report.steps|
      ensures Printable(results[i]) && report.steps[i].output == Format(results[i], showHeader)
      ensures report.steps[i].remaining.Some? <==> !showHeader && (i + 1) % 10 == 0
      ensures report.steps[i].remaining.Some? ==> report.steps[i].remaining.value == numberOfPaths - (i + 1)
    {
      assert StepFits(results, report.steps, i, showHeader, numberOfPaths);
    }
    if report.panicked {
      assert !Printable(results[|report.steps|]);
    }
  }

  /** The number of progress lines in a complete run without headers: one per ten results. */
  function CountProgress(steps: seq<Step>): nat {
    if |steps| == 0 then 0
    else CountProgress(steps[..|steps| - 1]) + (if steps[|steps| - 1].remaining.Some? then 1 else 0)
  }

  lemma {:induction false} ProgressCount(steps: seq<Step>, showHeader: bool)
    requires forall i :: 0 <= i < |steps| ==> (steps[i].remaining.Some? <==> !showHeader && (i + 1) % 10 == 0)
    ensures CountProgress(steps) == if showHeader then 0 else |steps| / 10
    decreases |steps|
  {
    if |steps| > 0 {
      var prefix := steps[..|steps| - 1];
      assert forall i :: 0 <= i < |prefix| ==> prefix[i] == steps[i];
      ProgressCount(prefix, showHeader);
    }
  }
}

=== FILE: filestile.dfy ===
/**
 * `filestile` (filestile/src/main.rs): in one directory, keep for every
 * match of the combined pattern the earliest-created file and delete every
 * other file. The directory listing is a parameter (it is read twice, so the
 * two passes get their own listings), the regular expression is abstract, and
 * creation times are integers.
 */
module Filestile {
  import opened Wrappers
  import opened Strings

  /** The metadata of an entry: whether it is a directory and, if readable, its creation time. */
  datatype Metadata = Metadata(isDir: bool, created: Option<int>)

  /** One directory entry; `meta` is `None` when the entry or its metadata could not be read. */
  datatype Entry = Entry(path: string, meta: Option<Metadata>)

  /** The compiled pattern: `is_match` and the text of the leftmost match (capture group 0). */
  datatype Matcher = Matcher(isMatch: string -> bool, wholeMatch: string -> string)

  /** A recorded file: its path and creation time. */
  datatype FileRec = FileRec(name: string, ts: int)

  // ---------------------------------------------------------------------------
  // the pattern
  // ---------------------------------------------------------------------------

  function Parenthesize(patterns: seq<string>): (r: seq<string>)
    ensures |r| == |patterns|
    ensures forall i :: 0 <= i < |r| ==> r[i] == "(" + patterns[i] + ")"
  {
    if |patterns| == 0 then [] else ["(" + patterns[0] + ")"] + Parenthesize(patterns[1..])
  }

  /** The single expression built from all patterns: each in parentheses, joined with `|`. */
  function CombinePatterns(patterns: seq<string>): string {
    Join(Parenthesize(patterns), "|")
  }

  /** Patterns without `|` can be read back from the combined expression. */
  lemma CombinePatternsRoundTrip(patterns: seq<string>)
    requires |patterns| > 0
    requires forall i :: 0 <= i < |patterns| ==> '|' !in patterns[i]
    ensures var parts := Split(CombinePatterns(patterns), '|');
      && |parts| == |patterns|
      && forall i :: 0 <= i < |parts| ==> parts[i] == "(" + patterns[i] + ")"
  {
    var wrapped := Parenthesize(patterns);
    forall i | 0 <= i < |wrapped| ensures '|' !in wrapped[i] {
      assert wrapped[i] == "(" + patterns[i] + ")";
    }
    SplitJoin(wrapped, '|');
  }

  // ---------------------------------------------------------------------------
  // first pass
  // ---------------------------------------------------------------------------

  /** An entry the first pass records: a readable non-directory whose path matches and whose creation time is known. */
  predicate Candidate(e: Entry, re: Matcher) {
    && e.meta.Some? && !e.meta.value.isDir
    && re.isMatch(e.path)
    && e.meta.value.created.Some?
  }

  /** The key a candidate is recorded under. */
  function Key(e: Entry, re: Matcher): string {
    re.wholeMatch(e.path)
  }

  /** `last_matches.retain(|key, _| re.is_match(key))` */
  function Retain(m: map<string, FileRec>, re: Matcher): (r: map<string, FileRec>)
    ensures r.Keys == set k | k in m && re.isMatch(k)
    ensures forall k :: k in r ==> r[k] == m[k]
  {
    map k | k in m && re.isMatch(k) :: m[k]
  }

  /**
   * One iteration of the first loop: a candidate is stored under its key when
   * the key is new, or when the stored file is strictly newer, in which case
   * the retain runs first.
   */
  function Record(m: map<string, FileRec>, e: Entry, re: Matcher): (r: map<string, FileRec>)
    ensures !Candidate(e, re) ==> r == m
    ensures Candidate(e, re) ==>
      && Key(e, re) in r
      && (|| r[Key(e, re)] == FileRec(e.path, e.meta.value.created.value)
          || (Key(e, re) in m && r[Key(e, re)] == m[Key(e, re)] && m[Key(e, re)].ts <= e.meta.value.created.value))
    ensures forall k :: k in r && k != Key(e, re) ==> k in m && r[k] == m[k]
    ensures Candidate(e, re) && Key(e, re) in m && m[Key(e, re)].ts <= e.meta.value.created.value ==> r == m
    ensures Candidate(e, re) && Key(e, re) in m && m[Key(e, re)].ts > e.meta.value.created.value ==>
      forall k :: k in m && k != Key(e, re) ==> (k in r <==> re.isMatch(k))
    ensures forall k :: k in m && k !in r ==>
      && Candidate(e, re) && Key(e, re) in m && m[Key(e, re)].ts > e.meta.value.created.value
      && !re.isMatch(k)
  {
    if !Candidate(e, re) then m
    else
      var key := Key(e, re);
      var file := FileRec(e.path, e.meta.value.created.value);
      if key in m then
        if m[key].ts > file.ts then Retain(m, re)[key := file] else m
      else m[key := file]
  }

  /** The first loop over the listing. */
  function FirstPass(entries: seq<Entry>, re: Matcher): map<string, FileRec>
    decreases |entries|
  {
    if |entries| == 0 then map[]
    else Record(FirstPass(entries[..|entries| - 1], re), entries[|entries| - 1], re)
  }

  /** `keep`: the names of the recorded files. */
  function Keep(m: map<string, FileRec>): set<string> {
    set k | k in m :: m[k].name
  }

  /** Every recorded file is a candidate of the listing, stored under its own key with its own creation time. */
  ghost predicate RecordsFrom(m: map<string, FileRec>, entries: seq<Entry>, re: Matcher) {
    forall k :: k in m ==>
      exists i :: 0 <= i < |entries| && Candidate(entries[i], re) && Key(entries[i], re) == k
        && m[k] == FileRec(entries[i].path, entries[i].meta.value.created.value)
  }

  lemma {:induction false} FirstPassRecordsCandidates(entries: seq<Entry>, re: Matcher)
    ensures RecordsFrom(FirstPass(entries, re), entries, re)
    decreases |entries|
  {
    if |entries| > 0 {
      var prefix := entries[..|entries| - 1];
      var e := entries[|entries| - 1];
      var m := FirstPass(prefix, re);
      FirstPassRecordsCandidates(prefix, re);
      var r := FirstPass(entries, re);
      forall k | k in r
        ensures exists i :: 0 <= i < |entries| && Candidate(entries[i], re) && Key(entries[i], re) == k
                  && r[k] == FileRec(entries[i].path, entries[i].meta.value.created.value)
      {
        if Candidate(e, re) && k == Key(e, re) && r[k] == FileRec(e.path, e.meta.value.created.value) {
          assert entries[|entries| - 1] == e;
        } else {
          assert k in m && r[k] == m[k];
          var i :| 0 <= i < |prefix| && Candidate(prefix[i], re) && Key(prefix[i], re) == k
                   && m[k] == FileRec(prefix[i].path, prefix[i].meta.value.created.value);
          assert entries[i] == prefix[i];
        }
      }
    }
  }

  /** A kept name is the name of a recorded candidate; directories and non-candidates are never kept. */
  lemma KeepOnlyCandidates(entries: seq<Entry>, re: Matcher, name: string)
    requires name in Keep(FirstPass(entries, re))
    ensures exists i :: 0 <= i < |entries| && entries[i].path == name && Candidate(entries[i], re)
    ensures re.wholeMatch(name) in FirstPass(entries, re)
    ensures FirstPass(entries, re)[re.wholeMatch(name)].name == name
  {
    var m := FirstPass(entries, re);
    FirstPassRecordsCandidates(entries, re);
    var k :| k in m && m[k].name == name;
    var i :| 0 <= i < |entries| && Candidate(entries[i], re) && Key(entries[i], re) == k
             && m[k] == FileRec(entries[i].path, entries[i].meta.value.created.value);
  }

  /** At most one file is kept per key: two kept names with the same key are the same name. */
  lemma OneKeptPerKey(entries: seq<Entry>, re: Matcher, a: string, b: string)
    requires a in Keep(FirstPass(entries, re)) && b in Keep(FirstPass(entries, re))
    requires re.wholeMatch(a) == re.wholeMatch(b)
    ensures a == b
  {
    KeepOnlyCandidates(entries, re, a);
    KeepOnlyCandidates(entries, re, b);
  }

  /**
   * The key of every candidate matches the pattern again, so the retain drops
   * nothing. This holds for the usual file-name patterns; the model does not
   * assume it elsewhere.
   */
  ghost predicate KeysRematch(entries: seq<Entry>, re: Matcher) {
    forall i :: 0 <= i < |entries| && Candidate(entries[i], re) ==> re.isMatch(Key(entries[i], re))
  }

  /** When keys rematch, the retain in the first loop never drops a recorded file. */
  lemma RetainIdle(entries: seq<Entry>, re: Matcher)
    requires KeysRematch(entries, re)
    ensures Retain(FirstPass(entries, re), re) == FirstPass(entries, re)
  {
    var m := FirstPass(entries, re);
    FirstPassRecordsCandidates(entries, re);
    forall k | k in m ensures re.isMatch(k) {
      var i :| 0 <= i < |entries| && Candidate(entries[i], re) && Key(entries[i], re) == k
               && m[k] == FileRec(entries[i].path, entries[i].meta.value.created.value);
    }
  }

  /** `entries[i]` is the first candidate of its key with the earliest creation time among them. */
  ghost predicate EarliestFirst(entries: seq<Entry>, re: Matcher, i: int) {
    && 0 <= i < |entries| && Candidate(entries[i], re)
    && var key := Key(entries[i], re);
       var ts := entries[i].meta.value.created.value;
       && (forall j :: 0 <= j < |entries| && Candidate(entries[j], re) && Key(entries[j], re) == key
             ==> ts <= entries[j].meta.value.created.value)
       && (forall j :: 0 <= j < i && Candidate(entries[j], re) && Key(entries[j], re) == key
             ==> ts < entries[j].meta.value.created.value)
  }

  /**
   * When the retain drops nothing, every key of a candidate is recorded, and
   * it holds the earliest-created file of that key, the first one seen on a tie.
   */
  lemma {:induction false} FirstPassKeepsEarliest(entries: seq<Entry>, re: Matcher)
    requires KeysRematch(entries, re)
    ensures var m := FirstPass(entries, re);
      && (forall j :: 0 <= j < |entries| && Candidate(entries[j], re) ==> Key(entries[j], re) in m)
      && (forall k :: k in m ==> exists i :: EarliestFirst(entries, re, i) && Key(entries[i], re) == k
                                  && m[k] == FileRec(entries[i].path, entries[i].meta.value.created.value))
    decreases |entries|
  {
    if |entries| > 0 {
      var n := |entries| - 1;
      var prefix := entries[..n];
      var e := entries[n];
      assert forall i :: 0 <= i < n ==> prefix[i] == entries[i];
      assert KeysRematch(prefix, re);
      FirstPassKeepsEarliest(prefix, re);
      var m := FirstPass(prefix, re);
      var r := FirstPass(entries, re);
      assert r == Record(m, e, re);
      RetainIdle(prefix, re);
      forall j | 0 <= j < |entries| && Candidate(entries[j], re) ensures Key(entries[j], re) in r {
        if j < n {
          assert Key(prefix[j], re) in m;
        }
      }
      forall k | k in r
        ensures exists i :: EarliestFirst(entries, re, i) && Key(entries[i], re) == k
                  && r[k] == FileRec(entries[i].path, entries[i].meta.value.created.value)
      {
        EarliestStep(entries, re, k);
      }
    }
  }

  /** The induction step of `FirstPassKeepsEarliest` for one key. */
  lemma EarliestStep(entries: seq<Entry>, re: Matcher, k: string)
    requires |entries| > 0
    requires KeysRematch(entries, re)
    requires var m := FirstPass(entries[..|entries| - 1], re);
      && (forall j :: 0 <= j < |entries| - 1 && Candidate(entries[j], re) ==> Key(entries[j], re) in m)
      && (forall k :: k in m ==> exists i :: EarliestFirst(entries[..|entries| - 1], re, i) && Key(entries[i], re) == k
                                  && m[k] == FileRec(entries[i].path, entries[i].meta.value.created.value))
      && Retain(m, re) == m
    requires k in FirstPass(entries, re)
    ensures exists i :: EarliestFirst(entries, re, i) && Key(entries[i], re) == k
              && FirstPass(entries, re)[k] == FileRec(entries[i].path, entries[i].meta.value.created.value)
  {
    var n := |entries| - 1;
    var prefix := entries[..n];
    var e := entries[n];
    var m := FirstPass(prefix, re);
    var r := FirstPass(entries, re);
    assert r == Record(m, e, re);
    if Candidate(e, re) && Key(e, re) == k {
      var ts := e.meta.value.created.value;
      if k in m {
        var i :| EarliestFirst(prefix, re, i) && Key(entries[i], re) == k
                 && m[k] == FileRec(entries[i].path, entries[i].meta.value.created.value);
        if m[k].ts > ts {
          assert r[k] == FileRec(e.path, ts);
          LastBecomesEarliest(entries, re, i);
        } else {
          assert r[k] == m[k];
          EarlierStaysEarliest(entries, re, i);
        }
      } else {
        assert r[k] == FileRec(e.path, ts);
        NewKeyIsEarliest(entries, re, m);
      }
    } else {
      assert k in m && r[k] == m[k];
      var i :| EarliestFirst(prefix, re, i) && Key(entries[i], re) == k
               && m[k] == FileRec(entries[i].path, entries[i].meta.value.created.value);
      OtherKeyStaysEarliest(entries, re, i);
    }
  }

  /** A last entry strictly earlier than the earliest of its key before it is the new earliest. */
  lemma LastBecomesEarliest(entries: seq<Entry>, re: Matcher, i: int)
    requires |entries| > 0 && Candidate(entries[|entries| - 1], re)
    requires EarliestFirst(entries[..|entries| - 1], re, i)
    requires Key(entries[i], re) == Key(entries[|entries| - 1], re)
    requires entries[i].meta.value.created.value > entries[|entries| - 1].meta.value.created.value
    ensures EarliestFirst(entries, re, |entries| - 1)
  {
    var n := |entries| - 1;
    var prefix := entries[..n];
    assert forall j :: 0 <= j < n ==> prefix[j] == entries[j];
  }

  /** The earliest before a last entry that is not strictly earlier stays the earliest. */
  lemma EarlierStaysEarliest(entries: seq<Entry>, re: Matcher, i: int)
    requires |entries| > 0 && Candidate(entries[|entries| - 1], re)
    requires EarliestFirst(entries[..|entries| - 1], re, i)
    requires Key(entries[i], re) == Key(entries[|entries| - 1], re)
    requires entries[i].meta.value.created.value <= entries[|entries| - 1].meta.value.created.value
    ensures EarliestFirst(entries, re, i)
  {
    var n := |entries| - 1;
    var prefix := entries[..n];
    assert forall j :: 0 <= j < n ==> prefix[j] == entries[j];
  }

  /** The first candidate of a key that has not been seen is its earliest. */
  lemma NewKeyIsEarliest(entries: seq<Entry>, re: Matcher, m: map<string, FileRec>)
    requires |entries| > 0 && Candidate(entries[|entries| - 1], re)
    requires forall j :: 0 <= j < |entries| - 1 && Candidate(entries[j], re) ==> Key(entries[j], re) in m
    requires Key(entries[|entries| - 1], re) !in m
    ensures EarliestFirst(entries, re, |entries| - 1)
  {
  }

  /** A last entry of another key, or no candidate at all, leaves the earliest of a key in place. */
  lemma OtherKeyStaysEarliest(entries: seq<Entry>, re: Matcher, i: int)
    requires |entries| > 0
    requires EarliestFirst(entries[..|entries| - 1], re, i)
    requires !Candidate(entries[|entries| - 1], re) || Key(entries[|entries| - 1], re) != Key(entries[i], re)
    ensures EarliestFirst(entries, re, i)
  {
    var n := |entries| - 1;
    var prefix := entries[..n];
    assert forall j :: 0 <= j < n ==> prefix[j] == entries[j];
  }

  // ---------------------------------------------------------------------------
  // second pass
  // ---------------------------------------------------------------------------

  /** The paths the second loop deletes, in listing order. */
  function Deleted(entries: seq<Entry>, keep: set<string>): (gone: seq<string>)
    ensures forall p :: p in gone <==>
      exists i :: 0 <= i < |entries| && entries[i].path == p
        && entries[i].meta.Some? && !entries[i].meta.value.isDir && p !in keep
  {
    if |entries| == 0 then []
    else
      var e := entries[0];
      var rest := Deleted(entries[1..], keep);
      var here := if e.meta.Some? && !e.meta.value.isDir && e.path !in keep then [e.path] else [];
      assert forall i :: 1 <= i < |entries| ==> entries[i] == entries[1..][i - 1];
      here + rest
  }

  /** What one run decides: the files to keep and the paths to delete. */
  datatype Outcome = Outcome(keep: set<string>, deleted: seq<string>)

  /**
   * `main` after argument parsing: the first listing selects, the second
   * deletes; a listing that cannot be read contributes nothing.
   */
  function Run(first: Option<seq<Entry>>, second: Option<seq<Entry>>, re: Matcher): (out: Outcome)
    ensures forall i :: 0 <= i < |out.deleted| ==> out.deleted[i] !in out.keep
    ensures first.None? ==> out.keep == {}
    ensures second.None? ==> out.deleted == []
    ensures second.Some? ==> forall p :: p in out.deleted <==>
      exists i :: 0 <= i < |second.value| && second.value[i].path == p
        && second.value[i].meta.Some? && !second.value[i].meta.value.isDir && p !in out.keep
    ensures first.Some? ==> forall n :: n in out.keep ==>
      exists i :: 0 <= i < |first.value| && first.value[i].path == n && Candidate(first.value[i], re)
  {
    var m := if first.Some? then FirstPass(first.value, re) else map[];
    var keep := Keep(m);
    if first.Some? then
      KeepFromCandidates(first.value, re);
      Outcome(keep, if second.Some? then Deleted(second.value, keep) else [])
    else Outcome(keep, if second.Some? then Deleted(second.value, keep) else [])
  }

  /** Every kept name is the path of a candidate of the first listing. */
  lemma KeepFromCandidates(entries: seq<Entry>, re: Matcher)
    ensures forall n :: n in Keep(FirstPass(entries, re)) ==>
      exists i :: 0 <= i < |entries| && entries[i].path == n && Candidate(entries[i], re)
  {
    forall n | n in Keep(FirstPass(entries, re))
      ensures exists i :: 0 <= i < |entries| && entries[i].path == n && Candidate(entries[i], re)
    {
      KeepOnlyCandidates(entries, re, n);
    }
  }

  /**
   * With one listing for both passes, a readable file is deleted exactly when
   * it is not the recorded file of its key; directories are never deleted, and
   * neither are files that were not seen with a creation time and a match.
   */
  lemma RunDeletes(entries: seq<Entry>, re: Matcher, p: string)
    ensures var out := Run(Some(entries), Some(entries), re);
      p in out.deleted <==>
        exists i :: 0 <= i < |entries| && entries[i].path == p
          && entries[i].meta.Some? && !entries[i].meta.value.isDir && p !in out.keep
    ensures var out := Run(Some(entries), Some(entries), re);
      forall i :: 0 <= i < |entries| && entries[i].meta.Some? && !entries[i].meta.value.isDir
                  && !Candidate(entries[i], re) && (forall j :: 0 <= j < |entries| && entries[j].path == entries[i].path ==> !Candidate(entries[j], re))
                  ==> entries[i].path in out.deleted
  {
    var out := Run(Some(entries), Some(entries), re);
    forall i | 0 <= i < |entries| && entries[i].meta.Some? && !entries[i].meta.value.isDir
                && !Candidate(entries[i], re) && (forall j :: 0 <= j < |entries| && entries[j].path == entries[i].path ==> !Candidate(entries[j], re))
      ensures entries[i].path in out.deleted
    {
      if entries[i].path in out.keep {
        assert false;
      }
    }
  }

  /**
   * When the retain drops nothing and paths are distinct, a readable file
   * survives exactly when it is the earliest-created file of its key, the
   * first one seen on a tie.
   */
  lemma SurvivorsAreEarliest(entries: seq<Entry>, re: Matcher, i: nat)
    requires KeysRematch(entries, re)
    requires forall a, b :: 0 <= a < b < |entries| ==> entries[a].path != entries[b].path
    requires i < |entries| && entries[i].meta.Some? && !entries[i].meta.value.isDir
    ensures var out := Run(Some(entries), Some(entries), re);
      entries[i].path !in out.deleted <==> EarliestFirst(entries, re, i)
  {
    var out := Run(Some(entries), Some(entries), re);
    var p := entries[i].path;
    assert p in out.deleted <==> p !in out.keep;
    if EarliestFirst(entries, re, i) {
      EarliestIsKept(entries, re, i);
    }
    if p in out.keep {
      KeptIsEarliest(entries, re, i);
    }
  }

  /** The earliest-first candidate of a key is kept. */
  lemma EarliestIsKept(entries: seq<Entry>, re: Matcher, i: nat)
    requires KeysRematch(entries, re)
    requires EarliestFirst(entries, re, i)
    ensures entries[i].path in Keep(FirstPass(entries, re))
  {
    var m := FirstPass(entries, re);
    var k := Key(entries[i], re);
    FirstPassKeepsEarliest(entries, re);
    assert k in m;
    var i' :| EarliestFirst(entries, re, i') && Key(entries[i'], re) == k
              && m[k] == FileRec(entries[i'].path, entries[i'].meta.value.created.value);
    EarliestFirstUnique(entries, re, i, i');
    assert m[k].name == entries[i].path;
  }

  /** With distinct paths, a kept file is the earliest-first candidate of its key. */
  lemma KeptIsEarliest(entries: seq<Entry>, re: Matcher, i: nat)
    requires KeysRematch(entries, re)
    requires forall a, b :: 0 <= a < b < |entries| ==> entries[a].path != entries[b].path
    requires i < |entries| && entries[i].path in Keep(FirstPass(entries, re))
    ensures EarliestFirst(entries, re, i)
  {
    var m := FirstPass(entries, re);
    var p := entries[i].path;
    FirstPassKeepsEarliest(entries, re);
    var k :| k in m && m[k].name == p;
    var i' :| EarliestFirst(entries, re, i') && Key(entries[i'], re) == k
              && m[k] == FileRec(entries[i'].path, entries[i'].meta.value.created.value);
    assert entries[i'].path == p;
  }

  /** Two earliest-first candidates of the same key are the same entry. */
  lemma EarliestFirstUnique(entries: seq<Entry>, re: Matcher, a: int, b: int)
    requires EarliestFirst(entries, re, a) && EarliestFirst(entries, re, b)
    requires Key(entries[a], re) == Key(entries[b], re)
    ensures a == b
  {
  }
}

=== FILE: strings.dfy ===
/**
 * String helpers that mirror the Rust standard library operations the tools use:
 * `str::split(char)`, `[String]::join`, `str::starts_with`, `str::trim`,
 * `str::lines` and the decimal formatting of integers.
 * Strings are sequences of Unicode scalar values.
 */
module Strings {
  import opened Wrappers

  /** `s.starts_with(prefix)` */
  predicate StartsWith(s: string, prefix: string) {
    |prefix| <= |s| && s[..|prefix|] == prefix
  }

  /** `s.ends_with(suffix)` */
  predicate EndsWith(s: string, suffix: string) {
    |suffix| <= |s| && s[|s| - |suffix|..] == suffix
  }

  /** A concatenation starts with its first part and ends with its second. */
  lemma ConcatAffixes(a: string, b: string)
    ensures StartsWith(a + b, a) && EndsWith(a + b, b)
  {
    assert (a + b)[..|a|] == a;
    assert (a + b)[|a + b| - |b|..] == b;
  }

  /** A text made of three parts starts with the first, ends with the last, and holds the middle between them. */
  lemma Framed(head: string, middle: string, tail: string)
    ensures var r := head + middle + tail;
      StartsWith(r, head) && EndsWith(r, tail) && r[|head|..|r| - |tail|] == middle
  {
    var r := head + middle + tail;
    assert r[..|head|] == head;
    assert r[|r| - |tail|..] == tail;
    assert r[|head|..|r| - |tail|] == middle;
  }

  // ---------------------------------------------------------------------------
  // split / join
  // ---------------------------------------------------------------------------

  /**
   * `s.split(sep)`: the maximal runs between separators, including empty ones
   * at either end; the empty string splits into one empty piece.
   */
  function Split(s: string, sep: char): (parts: seq<string>)
    ensures |parts| >= 1
    decreases |s|
  {
    if |s| == 0 then [""]
    else
      var rest := Split(s[1..], sep);
      if s[0] == sep then [""] + rest
      else [[s[0]] + rest[0]] + rest[1..]
  }

  /** `parts.join(sep)` */
  function Join(parts: seq<string>, sep: string): string
  {
    if |parts| == 0 then ""
    else if |parts| == 1 then parts[0]
    else parts[0] + sep + Join(parts[1..], sep)
  }

  /** No piece of a split holds the separator. */
  lemma {:induction false} SplitPiecesFree(s: string, sep: char)
    ensures forall i :: 0 <= i < |Split(s, sep)| ==> sep !in Split(s, sep)[i]
    decreases |s|
  {
    if |s| > 0 {
      SplitPiecesFree(s[1..], sep);
      var rest := Split(s[1..], sep);
      if s[0] != sep {
        assert sep !in rest[0];
        assert Split(s, sep)[0] == [s[0]] + rest[0];
      }
    }
  }

  /** Joining the pieces of a split with the same separator gives back the string. */
  lemma {:induction false} JoinSplit(s: string, sep: char)
    ensures Join(Split(s, sep), [sep]) == s
    decreases |s|
  {
    if |s| > 0 {
      var rest := Split(s[1..], sep);
      JoinSplit(s[1..], sep);
      if s[0] == sep {
        assert Split(s, sep) == [""] + rest;
        assert ([""] + rest)[1..] == rest;
      } else {
        assert Split(s, sep) == [[s[0]] + rest[0]] + rest[1..];
        JoinPrepend(s[0], rest, [sep]);
      }
      assert s == [s[0]] + s[1..];
    }
  }

  /** Putting a character in front of the first piece puts it in front of the join. */
  lemma JoinPrepend(c: char, parts: seq<string>, sep: string)
    requires |parts| >= 1
    ensures Join([[c] + parts[0]] + parts[1..], sep) == [c] + Join(parts, sep)
  {
    var ps := [[c] + parts[0]] + parts[1..];
    if |parts| > 1 {
      assert ps[1..] == parts[1..];
    }
  }

  /** A string without the separator splits into itself. */
  lemma {:induction false} SplitWithoutSeparator(s: string, sep: char)
    requires sep !in s
    ensures Split(s, sep) == [s]
    decreases |s|
  {
    if |s| > 0 {
      assert sep !in s[1..];
      SplitWithoutSeparator(s[1..], sep);
      assert [s[0]] + s[1..] == s;
    }
  }

  /** Splitting is the identity on every string that lacks the separator. */
  lemma SplitOfFree(s: string, sep: char)
    ensures sep !in s ==> Split(s, sep) == [s]
  {
    if sep !in s {
      SplitWithoutSeparator(s, sep);
    }
  }

  /** A separator-free head followed by the separator splits off as one piece. */
  lemma {:induction false} SplitAtSeparator(head: string, sep: char, tail: string)
    requires sep !in head
    ensures Split(head + [sep] + tail, sep) == [head] + Split(tail, sep)
    decreases |head|
  {
    var s := head + [sep] + tail;
    if |head| == 0 {
      assert s[0] == sep && s[1..] == tail;
    } else {
      assert s[1..] == head[1..] + [sep] + tail;
      assert sep !in head[1..];
      SplitAtSeparator(head[1..], sep, tail);
      assert [head[0]] + head[1..] == head;
    }
  }

  /** Splitting around a separator splits each side. */
  lemma {:induction false} SplitConcat(a: string, b: string, sep: char)
    ensures Split(a + [sep] + b, sep) == Split(a, sep) + Split(b, sep)
    decreases |a|
  {
    var s := a + [sep] + b;
    var sb := Split(b, sep);
    if |a| == 0 {
      assert s[0] == sep && s[1..] == b;
    } else {
      assert s[1..] == a[1..] + [sep] + b;
      SplitConcat(a[1..], b, sep);
      var pa := Split(a[1..], sep);
      if a[0] == sep {
        assert Split(s, sep) == [""] + (pa + sb);
      } else {
        assert Split(s, sep) == [[a[0]] + (pa + sb)[0]] + (pa + sb)[1..];
        PrependFirst(a[0], pa, sb);
      }
    }
  }

  lemma PrependFirst(c: char, front: seq<string>, back: seq<string>)
    requires |front| >= 1
    ensures [[c] + (front + back)[0]] + (front + back)[1..] == ([[c] + front[0]] + front[1..]) + back
  {
    assert (front + back)[1..] == front[1..] + back;
  }

  /** Splitting a join of separator-free pieces gives back the pieces. */
  lemma {:induction false} SplitJoin(parts: seq<string>, sep: char)
    requires |parts| >= 1
    requires forall i :: 0 <= i < |parts| ==> sep !in parts[i]
    ensures Split(Join(parts, [sep]), sep) == parts
    decreases |parts|
  {
    if |parts| == 1 {
      SplitWithoutSeparator(parts[0], sep);
    } else {
      SplitJoin(parts[1..], sep);
      SplitAtSeparator(parts[0], sep, Join(parts[1..], [sep]));
      assert [parts[0]] + parts[1..] == parts;
    }
  }

  // ---------------------------------------------------------------------------
  // trim
  // ---------------------------------------------------------------------------

  /** Rust's `char::is_whitespace`: the Unicode White_Space property. */
  predicate IsWhitespace(c: char) {
    var n := c as int;
    || n == 0x20 || 0x09 <= n <= 0x0D || n == 0x85 || n == 0xA0 || n == 0x1680
    || 0x2000 <= n <= 0x200A || n == 0x2028 || n == 0x2029 || n == 0x202F
    || n == 0x205F || n == 0x3000
  }

  predicate IsBlank(s: string) {
    forall i :: 0 <= i < |s| ==> IsWhitespace(s[i])
  }

  /** `s.trim_start()` */
  function TrimStart(s: string): string
    decreases |s|
  {
    if |s| > 0 && IsWhitespace(s[0]) then TrimStart(s[1..]) else s
  }

  /** `trim_start` removes a blank prefix and leaves a suffix that does not start with whitespace. */
  lemma {:induction false} TrimStartSpec(s: string)
    ensures var r := TrimStart(s);
      && |r| <= |s| && r == s[|s| - |r|..]
      && (|r| > 0 ==> !IsWhitespace(r[0]))
      && IsBlank(s[..|s| - |r|])
    decreases |s|
  {
    if |s| > 0 && IsWhitespace(s[0]) {
      TrimStartSpec(s[1..]);
      var r := TrimStart(s[1..]);
      assert s[1..][..|s| - 1 - |r|] == s[1..|s| - |r|];
    }
  }

  /** `s.trim_end()` */
  function TrimEnd(s: string): string
    decreases |s|
  {
    if |s| > 0 && IsWhitespace(s[|s| - 1]) then TrimEnd(s[..|s| - 1]) else s
  }

  /** `trim_end` removes a blank suffix and leaves a prefix that does not end with whitespace. */
  lemma {:induction false} TrimEndSpec(s: string)
    ensures var r := TrimEnd(s);
      && |r| <= |s| && r == s[..|r|]
      && (|r| > 0 ==> !IsWhitespace(r[|r| - 1]))
      && IsBlank(s[|r|..])
      && (|s| > 0 && !IsWhitespace(s[0]) ==> |r| > 0)
    decreases |s|
  {
    if |s| > 0 && IsWhitespace(s[|s| - 1]) {
      TrimEndSpec(s[..|s| - 1]);
      var r := TrimEnd(s[..|s| - 1]);
      assert s[..|s| - 1][|r|..] == s[|r|..|s| - 1];
    }
  }

  /** `s.trim()` */
  function Trim(s: string): string {
    TrimEnd(TrimStart(s))
  }

  /** Trimming leaves nothing exactly when every character is whitespace. */
  lemma TrimEmptyIffBlank(s: string)
    ensures |Trim(s)| == 0 <==> IsBlank(s)
  {
    var t := TrimStart(s);
    TrimStartSpec(s);
    TrimEndSpec(t);
    if |t| == 0 {
      assert s[..|s|] == s;
    } else {
      assert s[|s| - |t|] == t[0];
    }
  }

  // ---------------------------------------------------------------------------
  // lines
  // ---------------------------------------------------------------------------

  /** The line with one trailing carriage return removed, as `str::lines` does before a newline. */
  function StripCarriageReturn(line: string): (r: string)
    ensures r <= line && (EndsWith(line, "\r") <==> |r| < |line|)
  {
    if |line| > 0 && line[|line| - 1] == '\r' then line[..|line| - 1] else line
  }

  /** Every piece with its carriage return removed. */
  function StripEach(pieces: seq<string>): seq<string> {
    seq(|pieces|, i requires 0 <= i < |pieces| => StripCarriageReturn(pieces[i]))
  }

  /**
   * `text.lines()`: pieces between `\n`, a `\r` before a `\n` removed, and no
   * empty final piece after a trailing newline (so the empty text has no lines).
   */
  function Lines(text: string): (lines: seq<string>)
    ensures forall i :: 0 <= i < |lines| ==> '\n' !in lines[i]
    ensures text == "" ==> lines == []
    ensures '\n' !in text && text != "" ==> lines == [text]
  {
    var pieces := Split(text, '\n');
    SplitPiecesFree(text, '\n');
    SplitOfFree(text, '\n');
    var last := pieces[|pieces| - 1];
    var terminated := StripEach(pieces[..|pieces| - 1]);
    if last == "" then terminated else terminated + [last]
  }

  /** Text written as newline-terminated lines reads back as the same lines. */
  lemma LinesOfTerminated(lines: seq<string>)
    requires |lines| >= 1
    requires forall i :: 0 <= i < |lines| ==> '\n' !in lines[i]
    requires forall i :: 0 <= i < |lines| ==> !EndsWith(lines[i], "\r")
    ensures Lines(Join(lines, "\n") + "\n") == lines
  {
    var text := Join(lines, "\n") + "\n";
    SplitOfTerminated(lines);
    LinesOfPieces(text, lines);
    StripEachIdentity(lines);
  }

  /** Text whose split ends in an empty piece has the other pieces, stripped, as its lines. */
  lemma LinesOfPieces(text: string, pieces: seq<string>)
    requires Split(text, '\n') == pieces + [""]
    ensures Lines(text) == StripEach(pieces)
  {
    assert (pieces + [""])[..|pieces|] == pieces;
  }

  /** Newline-terminated lines split into the lines and one empty piece. */
  lemma SplitOfTerminated(lines: seq<string>)
    requires |lines| >= 1
    requires forall i :: 0 <= i < |lines| ==> '\n' !in lines[i]
    ensures Split(Join(lines, "\n") + "\n", '\n') == lines + [""]
  {
    var parts := lines + [""];
    JoinAppendEmpty(lines, "\n");
    assert forall i :: 0 <= i < |parts| ==> '\n' !in parts[i];
    SplitJoin(parts, '\n');
  }

  lemma StripEachIdentity(lines: seq<string>)
    requires forall i :: 0 <= i < |lines| ==> !EndsWith(lines[i], "\r")
    ensures StripEach(lines) == lines
  {
    var stripped := StripEach(lines);
    forall i | 0 <= i < |lines| ensures stripped[i] == lines[i] {
      assert !EndsWith(lines[i], "\r");
    }
  }

  /** Joining with one more empty piece appends one separator. */
  lemma {:induction false} JoinAppendEmpty(parts: seq<string>, sep: string)
    requires |parts| >= 1
    ensures Join(parts + [""], sep) == Join(parts, sep) + sep
    decreases |parts|
  {
    if |parts| == 1 {
      assert (parts + [""])[1..] == [""];
    } else {
      assert (parts + [""])[1..] == parts[1..] + [""];
      JoinAppendEmpty(parts[1..], sep);
    }
  }

  // ---------------------------------------------------------------------------
  // decimal integers
  // ---------------------------------------------------------------------------

  predicate IsDigit(c: char) {
    '0' <= c <= '9'
  }

  predicate AllDigits(s: string) {
    forall i :: 0 <= i < |s| ==> IsDigit(s[i])
  }

  function DigitChar(d: nat): (c: char)
    requires d < 10
    ensures IsDigit(c)
  {
    ('0' as int + d) as char
  }

  function DigitValue(c: char): nat
    requires IsDigit(c)
  {
    c as int - '0' as int
  }

  /** The decimal digits of `n` without leading zeros (`n.to_string()` for unsigned `n`). */
  function NatToString(n: nat): (s: string)
    ensures |s| >= 1 && AllDigits(s)
    ensures |s| > 1 ==> s[0] != '0'
    decreases n
  {
    if n < 10 then [DigitChar(n)] else NatToString(n / 10) + [DigitChar(n % 10)]
  }

  /** `i.to_string()` for a signed integer: a minus sign before the magnitude of a negative number. */
  function IntToString(i: int): string {
    if i < 0 then "-" + NatToString(-i) else NatToString(i)
  }

  /** The value of a string of decimal digits, most significant first. */
  function DigitsValue(s: string): nat
    requires AllDigits(s)
  {
    if |s| == 0 then 0 else DigitsValue(s[..|s| - 1]) * 10 + DigitValue(s[|s| - 1])
  }

  /** Reads an optionally negative decimal integer; `None` for anything else. */
  function ParseInt(s: string): Option<int> {
    if |s| > 1 && s[0] == '-' && AllDigits(s[1..]) then Some(0 - DigitsValue(s[1..]) as int)
    else if |s| > 0 && AllDigits(s) then Some(DigitsValue(s))
    else None
  }

  lemma {:induction false} DigitsValueOfNatToString(n: nat)
    ensures DigitsValue(NatToString(n)) == n
    decreases n
  {
    if n >= 10 {
      DigitsValueOfNatToString(n / 10);
      var s := NatToString(n);
      assert s[..|s| - 1] == NatToString(n / 10);
    }
  }

  /** Formatting an integer and reading it back gives the integer. */
  lemma ParseIntToString(i: int)
    ensures ParseInt(IntToString(i)) == Some(i)
  {
    var s := IntToString(i);
    if i < 0 {
      assert s[1..] == NatToString(-i);
      DigitsValueOfNatToString(-i);
    } else {
      DigitsValueOfNatToString(i);
    }
  }

  /** A formatted integer consists of digits and a minus sign only. */
  lemma IntToStringChars(i: int)
    ensures |IntToString(i)| >= 1
    ensures forall k :: 0 <= k < |IntToString(i)| ==> IsDigit(IntToString(i)[k]) || IntToString(i)[k] == '-'
  {
  }
}

=== FILE: wrappers.dfy ===
/** Rust's `Option` and `Result`, shared by every module of the model. */
module Wrappers {

  /** A value that may be absent: Rust's `Option`. */
  datatype Option<+T> = None | Some(value: T) {

    /** The carried value, or `default` when there is none. */
    function GetOr(default: T): (r: T)
      ensures Some? ==> r == value
      ensures None? ==> r == default
    {
      match this
      case Some(v) => v
      case None => default
    }
  }

  /** A computation that either succeeds with a value or fails with an error: Rust's `Result`. */
  datatype Result<+R, +E> = Success(value: R) | Failure(error: E)
}
